=== FILE: README.md ===
# PolySolver solver hook, modelled in Dafny

PolySolver is a mobile app that solves polynomial equations of degree 1 to 5.
Its logic lives in one React hook, `usePolynomialSolver`. This project models
that hook:

- **State.** The hook keeps its state in `useState` slots: the degree, six
  coefficient fields `a`–`f` holding text, the equation text shown above the
  fields, the list of solutions and an error message. In the model these are
  the fields of the class `Hook.PolynomialSolver`.
- **Operations.** The hook hands the screen a set of operations; each one is a
  method of that class:
  - `updateCoefficient` stores a field only when it matches `^-?\d*\.?\d*$`;
  - `setDegree`;
  - `getCoefficientsAsNumbers` reads each field with `parseFloat(text) || 0`;
  - `updateEquation`;
  - `solve`;
  - `clear`.
- **The equation effect.** The effect that recomputes the equation whenever the
  coefficients or the degree change runs at the end of every method that
  changes them. The class invariant `Valid()` therefore says the equation text
  always matches the current polynomial.

The numerical parts are modelled as follows:

- **The two closed forms.**
  - `solveLinear` gives `-b/a`.
  - `solveQuadratic` splits on the sign of the discriminant. It returns two
    real roots (the `+√D` one first), a double root, or a pair of complex
    conjugates.
- **The two accumulator loops.** `polynomialFunction` and
  `polynomialDerivative` are methods with loop invariants. They are proved
  against the functions `PolyValue` and `DerivValue`. Those functions are in
  turn tied to Horner's scheme and to the power rule.
- **Newton–Raphson.** `newtonRaphson` is a method proved against the function
  `NewtonFrom`. A non-null answer is the first iterate whose residual is below
  the tolerance, and no earlier pass gave up.
- **The seed scan.** `findNumericalRoots` tries the seeds
  −10, −5, −2, −1, 0, 1, 2, 5, 10 in order. It keeps a candidate only when it is
  at least 0.01 from every root kept so far and its residual is below 0.001. It
  stores the candidate as `Number(root.toFixed(5))` and stops at
  `coeffs.length - 1` roots. It is a method proved against the function `Scan`.
- **`formatSolutions`.** This is the function `Results.FormatSolutions`.
  `toFixed` is modelled exactly on reals: `Decimal.FixedText` gives the text
  and `Decimal.FixedValue` the number it reads back as.

Numbers are exact `real`s. JavaScript's `Math.sqrt` is a parameter `sqrt`,
constrained by `Solvers.IsSquareRoot`. The conversion of a number to text when
it is appended to a string (`term += coeff`) is the class constant
`numberText`, constrained by `Equation.IsNumberText`. That predicate requires
the text to be non-empty and free of spaces, and requires integers of
magnitude below 10^21 to print as their digits.

A zero leading coefficient makes `solve` set the error and keep the old
solutions. `formatSolutions` then still prints those old solutions, because it
shows the error only when the list is empty. The model keeps this behaviour
(`Hook.PolynomialSolver.Solve`, `Results.FormatSolutionsLines`).

## Model

| member | source | states |
|---|---|---|
| Hook.PolynomialSolver.constructor | src/hooks/usePolynomialSolver.ts:20-31 | The hook starts at degree 3 with the fields "3", "2", "-5", "1", "0", "0", no solutions and no error. Its initial equation text "3x³ + 2x² - 5x + 1 = 0" is exactly what the equation effect computes for those fields, so the invariant holds from the start. |
| Hook.InitialValues | src/hooks/usePolynomialSolver.ts:21-28 | The initial field texts are accepted by the field pattern. They read as the coefficients 3, 2, -5, 1. |
| Equation.InitialEquation | src/hooks/usePolynomialSolver.ts:29 | The equation text of [3, 2, -5, 1] is "3x³ + 2x² - 5x + 1 = 0", for any number printer that prints integers as digits. |
| Hook.PolynomialSolver.UpdateCoefficient | src/hooks/usePolynomialSolver.ts:34-44 | A text matching `^-?\d*\.?\d*$` replaces that one field and no other. Any other text leaves the fields and the equation unchanged. The equation follows the fields, and the invariant is kept. |
| Decimal.CoefficientTextCharacters | src/hooks/usePolynomialSolver.ts:38 | A text matches the field pattern exactly when it has only digits and points, allows a '-' only in front, and has at most one point. |
| Decimal.EmptyIsCoefficientText | src/hooks/usePolynomialSolver.ts:38 | The empty text matches the pattern, so the `value === ''` test adds nothing. It reads as 0. |
| Hook.StoredTextReadsBack | src/hooks/usePolynomialSolver.ts:34-44 | After a text is stored in the field at position i, the number read at i is that text's value. Every other position reads as before. |
| Hook.PolynomialSolver.SetDegree | src/hooks/usePolynomialSolver.ts:20 | Setting the degree, followed by the equation effect at :278-280, keeps the invariant. |
| Hook.PolynomialSolver.UpdateEquation | src/hooks/usePolynomialSolver.ts:47-83 | The stored equation is `EquationText` of the current coefficients. |
| Hook.PolynomialSolver.BuildTerms | src/hooks/usePolynomialSolver.ts:51-75 | The term-building loop yields `Terms` of the coefficients: one term per non-zero coefficient, highest power first. |
| Hook.PolynomialSolver.BuildTerm | src/hooks/usePolynomialSolver.ts:55-71 | The statements that append the numeral and then the power part build exactly `Term` of the coefficient and its power. |
| Equation.EquationTextShape | src/hooks/usePolynomialSolver.ts:77-80 | With all coefficients zero, the text is "0 = 0". Otherwise it is the terms written as a sum with collapsed signs, followed by " = 0". |
| Equation.CollapseJoin | src/hooks/usePolynomialSolver.ts:78-79 | Terms that have no spaces are joined with " + ", and every "+ -" is replaced by "- ". The result writes each later term after " - " without its minus sign when it has one, and after " + " otherwise. |
| Equation.TermsPositions | src/hooks/usePolynomialSolver.ts:51-75 | Terms appear exactly for the non-zero coefficients, in order. The m-th term renders its coefficient with power degree − i. |
| Equation.NoTermsAllZero | src/hooks/usePolynomialSolver.ts:53-54 | The term list is empty exactly when every coefficient is zero. |
| Equation.UnitTerms | src/hooks/usePolynomialSolver.ts:57-71 | A coefficient of ±1 prints no numeral, only its sign, except on the constant term, where it prints "1" or "-1". x¹ prints as "x". |
| Hook.PolynomialSolver.GetCoefficientsAsNumbers | src/hooks/usePolynomialSolver.ts:86-98 | The loop returns `CoefficientValues` of the fields and the degree. |
| Hook.CoefficientValues | src/hooks/usePolynomialSolver.ts:86-98 | There is one number per position 0..degree. |
| Decimal.IntTextValue | src/hooks/usePolynomialSolver.ts:93 | `parseFloat(text) \|\| 0` on the digits of an integer reads back that integer. |
| Decimal.NoDigitsReadsZero | src/hooks/usePolynomialSolver.ts:93 | An accepted text with no digit (such as "", "-", ".", "-.") reads as 0, because of the `\|\| 0`. |
| Solvers.SolveLinear | src/hooks/usePolynomialSolver.ts:101-104 | There is exactly one entry, and it is real. |
| Solvers.SolveLinearRoot | src/hooks/usePolynomialSolver.ts:101-104 | x is a root of a·x + b exactly when x is the entry returned. |
| Solvers.SolveQuadratic | src/hooks/usePolynomialSolver.ts:107-129 | D > 0 gives two real entries and D = 0 one. D < 0 gives two complex entries with the same real part −b/(2a) and opposite, non-zero imaginary parts, the +√(−D)/(2a) one first. |
| Solvers.SolveQuadraticRealRoots | src/hooks/usePolynomialSolver.ts:107-120 | For D ≥ 0, x is a root exactly when it is one of the entries. Two entries are distinct and differ by √D/a, the +√D one first. |
| Solvers.SolveQuadraticComplexRoots | src/hooks/usePolynomialSolver.ts:121-128 | For D < 0, both entries are complex roots and there is no real root. |
| Solvers.SolveQuadraticExamples | src/hooks/usePolynomialSolver.ts:107-129 | x² − 4 gives [2, −2], x² − 2x + 1 gives [1], and x² + 1 gives [i, −i]. |
| Polynomial.PolynomialFunction | src/hooks/usePolynomialSolver.ts:132-140 | The accumulator loop returns `PolyValue(cs, x)`. |
| Polynomial.PolyValueIsHorner | src/hooks/usePolynomialSolver.ts:132-140 | The loop's sum equals Horner's scheme, an independent definition of the polynomial's value. |
| Polynomial.PolyValueAppend | src/hooks/usePolynomialSolver.ts:132-140 | Appending the coefficient c turns the value p into x·p + c. |
| Polynomial.LowDegreeValues | src/hooks/usePolynomialSolver.ts:132-140 | [a, b] evaluates to a·x + b, and [a, b, c] to a·x² + b·x + c. |
| Polynomial.PolynomialDerivative | src/hooks/usePolynomialSolver.ts:171-182 | The accumulator loop returns `DerivValue(cs, x)`. |
| Polynomial.DerivValueAppend | src/hooks/usePolynomialSolver.ts:171-182 | Product rule: the derivative of p·x + c is p + x·p'. |
| Polynomial.DerivValueConstant | src/hooks/usePolynomialSolver.ts:171-182 | The derivative of a constant is 0. Together with DerivValueAppend this determines the derivative. |
| Polynomial.DerivValueIsPowerRule | src/hooks/usePolynomialSolver.ts:171-182 | The loop evaluates the power-rule coefficients (n−i)·cᵢ. |
| Numerical.NewtonRaphson | src/hooks/usePolynomialSolver.ts:143-168 | The loop, with its early return and its break, returns `NewtonFrom`. |
| Numerical.NewtonFromConverged | src/hooks/usePolynomialSolver.ts:152-158 | A non-null answer is the k-th iterate for some k below the pass budget. Its residual is below the tolerance and every earlier pass continued. |
| Numerical.NewtonFromFirstConvergent | src/hooks/usePolynomialSolver.ts:152-158 | Conversely, the first converging iterate within the budget is the answer. |
| Numerical.NewtonFromStalls | src/hooks/usePolynomialSolver.ts:160-162 | A flat derivative before convergence gives null. |
| Numerical.NewtonFromExhausted | src/hooks/usePolynomialSolver.ts:165-167 | Using up the budget without converging gives null. |
| Numerical.FindNumericalRoots | src/hooks/usePolynomialSolver.ts:185-209 | The seed loop, with its break at the cap, returns `NumericalRoots`. |
| Numerical.NumericalRoots | src/hooks/usePolynomialSolver.ts:208 | Every entry is real. |
| Numerical.NumericalRootsBound | src/hooks/usePolynomialSolver.ts:205 | For a degree of at least 1, there are never more roots than the degree. |
| Numerical.NumericalRootsSeparated | src/hooks/usePolynomialSolver.ts:199-201 | Stored roots are pairwise at least 0.01 apart, even after rounding, and each has at most 5 decimals. |
| Numerical.NumericalRootsFromSeeds | src/hooks/usePolynomialSolver.ts:192-202 | Each root comes from its own seed, in seed order. Newton converged from that seed, the residual test passed, and the root is the result rounded to 5 decimals. That the unrounded answer was at least 0.01 from the roots stored before it is stated by `Numerical.ConsiderSkipsNear` and `Numerical.ScanSkipsNear`. |
| Numerical.ConsiderStoresPassing | src/hooks/usePolynomialSolver.ts:197-202 | A seed whose Newton result is not within 0.01 of a stored root is stored, rounded to 5 decimals, at the end of the list. The residual test never rejects it. |
| Numerical.ScanContinues | src/hooks/usePolynomialSolver.ts:192-205 | While the count is below `coeffs.length - 1`, the scan goes on to the next seed with the roots found so far. |
| Numerical.ScanStoresPassing | src/hooks/usePolynomialSolver.ts:192-202 | If the seeds before `Seeds[i]` found fewer than `coeffs.length - 1` roots, and Newton from `Seeds[i]` converges to a point not within 0.01 of any of them, then that point, rounded to 5 decimals, is the next root reported. |
| Numerical.ConsiderSkipsNear | src/hooks/usePolynomialSolver.ts:199-200 | A Newton answer within 0.01 of a root already stored fails the uniqueness test, and the stored roots stay as they are. |
| Numerical.ScanSkipsNear | src/hooks/usePolynomialSolver.ts:199-200 | If the seeds before `Seeds[i]` found fewer than `coeffs.length - 1` roots and Newton from `Seeds[i]` converges to a point within 0.01 of one of them, trying `Seeds[i]` adds no root. |
| Numerical.ScanStopsAtCap | src/hooks/usePolynomialSolver.ts:205 | Once the count reaches `coeffs.length - 1`, later seeds are never tried. |
| Numerical.ResidualTestPasses | src/hooks/usePolynomialSolver.ts:200 | The residual test `< 0.001` never rejects a candidate, because Newton only answers points with residual below 1e-10. |
| Decimal.FixedTextValue | src/hooks/usePolynomialSolver.ts:201 | The text of `x.toFixed(d)` is accepted by the field pattern and reads back as `Number(x.toFixed(d))`. |
| Decimal.FixedValueError | src/hooks/usePolynomialSolver.ts:201 | Rounding to d decimals moves x by at most half a unit in the last place. |
| Decimal.FixedValueMonotone | src/hooks/usePolynomialSolver.ts:201 | Rounding keeps the order of two numbers. |
| Decimal.FixedValueOnGrid | src/hooks/usePolynomialSolver.ts:201 | A rounded value has at most d decimals. |
| Decimal.FixedValueOfGridPoint | src/hooks/usePolynomialSolver.ts:201 | A value with at most d decimals is left unchanged by rounding. |
| Hook.PolynomialSolver.Solve | src/hooks/usePolynomialSolver.ts:212-240 | The call succeeds exactly when the leading coefficient is non-zero. On failure the error is the leading-coefficient message and the solutions are kept. On success the error is cleared and the solutions are `SolutionsFor` the coefficients. |
| Hook.SolutionsAreRoots | src/hooks/usePolynomialSolver.ts:221-231 | For degrees 1 and 2, the real entries are exactly the real roots, and complex entries are complex roots. For other degrees, every entry is real and lies within 0.000005 of a point with residual below 1e-10. There are never more entries than the degree. |
| Hook.NumericalNearRoots | src/hooks/usePolynomialSolver.ts:194-202 | Every stored root lies within 0.000005 of a point where Newton converged. |
| Hook.PolynomialSolver.Clear | src/hooks/usePolynomialSolver.ts:243-255 | All fields become empty, the solutions and the error are cleared, and the equation is "0 = 0". The invariant is kept. |
| Hook.ClearedEquation | src/hooks/usePolynomialSolver.ts:243-255 | The empty fields read as 0, so "0 = 0" is what the effect at :278-280 recomputes afterwards. |
| Results.FormatSolutionsLines | src/hooks/usePolynomialSolver.ts:258-275 | With solutions, the text splits at its line breaks into the header followed by one line per solution, in order. With no solutions, it is the error message when there is one and the "no solutions" notice otherwise. |
| Text.SplitJoin | src/hooks/usePolynomialSolver.ts:274 | Splitting, at the separator, parts joined by a separator that none of them contains gives the parts back. |
| Results.RealLine | src/hooks/usePolynomialSolver.ts:271 | A real solution's line is "x" followed by its 1-based position and " = ", then a text that reads back as the root rounded to 5 decimals, within 0.000005 of the root. |
| Results.ComplexLine | src/hooks/usePolynomialSolver.ts:265-269 | A complex solution's line shows the real part to 3 decimals, then the sign of the imaginary part and its magnitude to 3 decimals. Read back with that sign, each part is within 0.0005 of the exact value. |

## Left out

- Floating point: all numbers are exact reals. Rounding error, overflow, `NaN` and `Infinity` are not modelled. In particular, `discriminant === 0` is exact here, and `Math.pow` is exact repeated multiplication.
- `Math.sqrt` is a parameter assumed to return the exact non-negative square root (`Solvers.IsSquareRoot`). It is not implemented.
- JavaScript's number-to-string conversion (`term += coeff`) is a parameter. Only the facts listed under `Equation.IsNumberText` are assumed about it. For example, the text of 2.5 is not pinned down.
- `toFixed` for |x| ≥ 10^21, where JavaScript switches to exponent notation, is not modelled. `Decimal.FixedText` always prints plain digits.
- `parseFloat` is modelled only on texts the field pattern accepts. The fields can hold nothing else.
- The `try`/`catch` in `solve` (:236-239) is left out. Nothing in the `try` block throws on numbers, so the catch message is unreachable in the model.
- React's scheduling is left out. State updates, the effect at :278-280 and re-renders are applied synchronously at the end of each method. The object returned at :282-294 is the class's public surface.
- The unused local `tolerance = 1e-5` in `findNumericalRoots` (:187) is left out.
- Numerical.NewtonRaphson: requires a positive tolerance. The hook always passes its default of 1e-10.
- Hook.PolynomialSolver.SetDegree: takes a natural number. The screen offers only 1 to 5. A negative or fractional degree, which `setDegree` would accept, is not modelled. Positions past the sixth field read as 0, as `coefficients[undefined]` does.
- Numerical.NumericalRootsBound: stated for at least two coefficients. For degree 0 the cap `coeffs.length - 1` is 0 and the scan stops after the first seed.
- The screens, navigation and translations are not part of this model. The hook returns no chart data. The operation screen destructures a `graphData` field, but the object at :282-294 never provides one, so there is nothing to model.

=== FILE: decimal.dfy ===
/**
  Decimal text as the solver hook reads and writes it: the input pattern a
  coefficient field accepts, `parseFloat(text) || 0` on such text, and
  `Number.prototype.toFixed(d)` both as text and as the number it denotes.
  Numbers are exact reals; binary floating point is not modelled.
*/
module Decimal {
  import opened Text

  function Abs(x: real): (r: real)
    ensures r >= 0.0 && (r == x || r == -x)
  {
    if x < 0.0 then -x else x
  }

  /** 1 when the text starts with a minus sign, 0 otherwise. */
  function SignLength(s: string): (n: nat)
    ensures n <= |s|
  {
    if |s| > 0 && s[0] == '-' then 1 else 0
  }

  /** The length of the longest prefix of s made of digits. */
  function LeadingDigits(s: string): (k: nat)
    ensures k <= |s| && AllDigits(s[..k])
    ensures k < |s| ==> !IsDigit(s[k])
  {
    if s == [] || !IsDigit(s[0]) then 0
    else
      var k := 1 + LeadingDigits(s[1..]);
      assert s[..k] == [s[0]] + s[1..][..k - 1];
      k
  }

  /** The coefficient field pattern `^-?\d*\.?\d*$` (the empty text included). */
  predicate IsCoefficientText(s: string) {
    var t := s[SignLength(s)..];
    var k := LeadingDigits(t);
    k == |t| || (t[k] == '.' && AllDigits(t[k + 1..]))
  }

  /**
    The same language described character by character: digits and '.' only,
    except for a '-' in front, and never two points.
  */
  predicate DecimalCharacters(s: string) {
    && (forall i :: 0 <= i < |s| ==> IsDigit(s[i]) || s[i] == '.' || (i == 0 && s[i] == '-'))
    && (forall i, j :: 0 <= i < j < |s| && s[i] == '.' ==> s[j] != '.')
  }

  /** The digits in front of the point of a coefficient text (after the sign). */
  function WholeDigits(s: string): (w: string)
    requires IsCoefficientText(s)
    ensures AllDigits(w)
  {
    var t := s[SignLength(s)..];
    t[..LeadingDigits(t)]
  }

  /** The digits behind the point of a coefficient text ("" when it has no point). */
  function FractionDigits(s: string): (f: string)
    requires IsCoefficientText(s)
    ensures AllDigits(f)
  {
    var t := s[SignLength(s)..];
    var k := LeadingDigits(t);
    if k == |t| then "" else t[k + 1..]
  }

  /**
    `parseFloat(s) || 0` for a text that matches the coefficient pattern: a text
    with no digit at all ("", "-", ".", "-.") is not a number and becomes 0;
    otherwise it is the signed decimal it spells.
  */
  function CoefficientValue(s: string): real
    requires IsCoefficientText(s)
  {
    var w, f := WholeDigits(s), FractionDigits(s);
    if w == [] && f == [] then 0.0 else SignedDecimal(SignLength(s) == 1, w, f)
  }

  /** The number written as an optional '-', the digits w, a point and the digits f. */
  function SignedDecimal(negative: bool, w: string, f: string): real
    requires AllDigits(w) && AllDigits(f)
  {
    var v := DigitsValue(w) as real + DigitsValue(f) as real / Pow10(|f|) as real;
    if negative then -v else v
  }

  /**
    The integer n closest to |x|·10^d, the larger one on a tie: the digits that
    `x.toFixed(d)` prints.
  */
  function FixedScaled(x: real, d: nat): nat {
    ScaledMagnitude(x, Pow10(d) as real)
  }

  /** The integer nearest to y, the larger one on a tie. */
  function RoundHalfUp(y: real): (n: int)
    ensures y - 0.5 < n as real <= y + 0.5
  {
    (y + 0.5).Floor
  }

  /** |x|·p rounded to the nearest integer, halves up. */
  function ScaledMagnitude(x: real, p: real): (n: nat)
    requires p > 0.0
    ensures Abs(x) * p - 0.5 < n as real <= Abs(x) * p + 0.5
  {
    var n := RoundHalfUp(Abs(x) * p);
    assert n as real > -0.5;
    n
  }

  /** `Number(x.toFixed(d))`: x rounded to d decimals, halves away from zero. */
  function FixedValue(x: real, d: nat): real {
    RoundAt(x, Pow10(d) as real)
  }

  /** x rounded to the nearest multiple of 1/p, halves away from zero. */
  function RoundAt(x: real, p: real): real
    requires p > 0.0
  {
    var m := ScaledMagnitude(x, p) as real / p;
    if x < 0.0 then -m else m
  }

  /** `x.toFixed(d)` for |x| < 10^21: a '-' for negative x, then at least one digit before the point. */
  function FixedText(x: real, d: nat): string {
    var padded := Padded(NatText(FixedScaled(x, d)), d);
    var body := if d == 0 then padded else padded[..|padded| - d] + "." + padded[|padded| - d..];
    if x < 0.0 then "-" + body else body
  }

  /** Digits with zeros put in front until there are more than d of them. */
  function Padded(digits: string, d: nat): (padded: string)
    requires |digits| > 0
    ensures |padded| > d
  {
    if |digits| <= d then Zeros(d + 1 - |digits|) + digits else digits
  }

  /** v has at most d decimals. */
  predicate OnGrid(v: real, d: nat) {
    OnGridAt(v, Pow10(d) as real)
  }

  /** v is a whole multiple of 1/p. */
  predicate OnGridAt(v: real, p: real) {
    (v * p).Floor as real == v * p
  }

  // ---------------------------------------------------------------------------
  // The pattern

  lemma CoefficientTextCharacters(s: string)
    ensures IsCoefficientText(s) <==> DecimalCharacters(s)
  {
    if IsCoefficientText(s) {
      PatternHasDecimalCharacters(s);
    }
    if DecimalCharacters(s) {
      DecimalCharactersMatchPattern(s);
    }
  }

  lemma PatternHasDecimalCharacters(s: string)
    requires IsCoefficientText(s)
    ensures DecimalCharacters(s)
  {
    var o := SignLength(s);
    var t := s[o..];
    var k := LeadingDigits(t);
    forall i | 0 <= i < |s|
      ensures IsDigit(s[i]) || s[i] == '.' || (i == 0 && s[i] == '-')
      ensures s[i] == '.' ==> i == o + k
    {
      if i >= o {
        var j := i - o;
        assert t[j] == s[i];
        if j < k {
          assert t[..k][j] == t[j];
        } else if j > k {
          assert t[k + 1..][j - k - 1] == t[j];
        }
      }
    }
  }

  lemma DecimalCharactersMatchPattern(s: string)
    requires DecimalCharacters(s)
    ensures IsCoefficientText(s)
  {
    var o := SignLength(s);
    var t := s[o..];
    var k := LeadingDigits(t);
    if k < |t| {
      assert t[k] == s[k + o];
      assert t[k] == '.';
      var f := t[k + 1..];
      forall j | 0 <= j < |f| ensures IsDigit(f[j]) {
        assert f[j] == s[k + 1 + j + o];
      }
    }
  }

  lemma EmptyIsCoefficientText()
    ensures IsCoefficientText("") && CoefficientValue("") == 0.0
  {
  }

  // ---------------------------------------------------------------------------
  // Reading decimals

  lemma {:induction false} LeadingDigitsAppend(w: string, rest: string)
    requires AllDigits(w)
    ensures LeadingDigits(w + rest) == |w| + LeadingDigits(rest)
    decreases |w|
  {
    if w != [] {
      assert (w + rest)[1..] == w[1..] + rest;
      LeadingDigitsAppend(w[1..], rest);
    } else {
      assert w + rest == rest;
    }
  }

  function SignText(negative: bool): string {
    if negative then "-" else ""
  }

  /** A coefficient text with no digit (such as "", "-", "." or "-.") reads as 0. */
  lemma NoDigitsReadsZero(s: string)
    requires IsCoefficientText(s)
    requires forall i :: 0 <= i < |s| ==> !IsDigit(s[i])
    ensures CoefficientValue(s) == 0.0
  {
    var t := s[SignLength(s)..];
    var k := LeadingDigits(t);
    assert k == 0 by {
      if k > 0 {
        assert t[0] == s[SignLength(s)];
      }
    }
  }

  /** Removing the sign of a signed text leaves the unsigned part. */
  lemma UnsignedPart(negative: bool, t: string)
    requires t == [] || t[0] != '-'
    ensures var s := SignText(negative) + t;
            SignLength(s) == (if negative then 1 else 0) && s[SignLength(s)..] == t
  {
  }

  /** A signed decimal with a point, and digits on at least one side, reads as that decimal. */
  lemma PointDecimalValue(negative: bool, w: string, f: string)
    requires AllDigits(w) && AllDigits(f) && |w| + |f| > 0
    ensures IsCoefficientText(SignText(negative) + (w + "." + f))
    ensures CoefficientValue(SignText(negative) + (w + "." + f)) == SignedDecimal(negative, w, f)
  {
    var t := w + ("." + f);
    assert t == w + "." + f;
    var s := SignText(negative) + t;
    assert t[0] != '-' by {
      if w != [] { assert t[0] == w[0]; }
    }
    UnsignedPart(negative, t);
    LeadingDigitsAppend(w, "." + f);
    assert LeadingDigits("." + f) == 0;
    assert t[..|w|] == w;
    assert t[|w| + 1..] == f;
    assert IsCoefficientText(s);
    assert WholeDigits(s) == w;
    assert FractionDigits(s) == f;
  }

  /** A signed, non-empty run of digits reads as that integer. */
  lemma IntegerDecimalValue(negative: bool, w: string)
    requires AllDigits(w) && |w| > 0
    ensures IsCoefficientText(SignText(negative) + w)
    ensures CoefficientValue(SignText(negative) + w) == SignedDecimal(negative, w, "")
  {
    var s := SignText(negative) + w;
    UnsignedPart(negative, w);
    LeadingDigitsAppend(w, "");
    assert w + "" == w;
    assert w[..|w|] == w;
    assert IsCoefficientText(s);
    assert WholeDigits(s) == w;
    assert FractionDigits(s) == "";
  }

  lemma SignedInteger(negative: bool, w: string)
    requires AllDigits(w)
    ensures SignedDecimal(negative, w, "") == if negative then -(DigitsValue(w) as real) else DigitsValue(w) as real
  {
  }

  /** The text JavaScript prints for an integer reads back as that integer. */
  lemma IntTextValue(n: int)
    ensures IsCoefficientText(IntText(n)) && CoefficientValue(IntText(n)) == n as real
  {
    var m: nat := if n < 0 then -n else n;
    NatTextValue(m);
    IntegerDecimalValue(n < 0, NatText(m));
    SignedInteger(n < 0, NatText(m));
    assert IntText(n) == SignText(n < 0) + NatText(m);
  }

  // ---------------------------------------------------------------------------
  // toFixed

  lemma FixedTextShape(x: real, d: nat)
    returns (w: string, f: string)
    ensures AllDigits(w) && AllDigits(f) && |w| > 0 && |f| == d
    ensures DigitsValue(w) * Pow10(d) + DigitsValue(f) == FixedScaled(x, d)
    ensures FixedText(x, d) == if d == 0 then SignText(x < 0.0) + w else SignText(x < 0.0) + (w + "." + f)
  {
    var n := FixedScaled(x, d);
    var padded := Padded(NatText(n), d);
    NatTextValue(n);
    PaddedValue(NatText(n), d);
    w, f := padded[..|padded| - d], padded[|padded| - d..];
    SplitValue(padded, d);
    assert d != 0 ==> w + "." + f == w + ("." + f);
  }

  lemma PaddedValue(s: string, d: nat)
    requires |s| > 0 && AllDigits(s)
    ensures AllDigits(Padded(s, d)) && DigitsValue(Padded(s, d)) == DigitsValue(s)
  {
    var padded := Padded(s, d);
    if |s| <= d {
      assert padded == Zeros(d + 1 - |s|) + s;
      ZeroPaddedValue(d + 1 - |s|, s);
    } else {
      assert padded == s;
    }
  }

  lemma SplitValue(s: string, d: nat)
    requires AllDigits(s) && |s| >= d
    ensures var w, f := s[..|s| - d], s[|s| - d..];
            AllDigits(w) && AllDigits(f) && DigitsValue(w) * Pow10(d) + DigitsValue(f) == DigitsValue(s)
  {
    var w, f := s[..|s| - d], s[|s| - d..];
    assert s == w + f;
    DigitsValueAppend(w, f);
  }

  /** `Number(x.toFixed(d))`: the printed text reads back as the rounded value. */
  lemma FixedTextValue(x: real, d: nat)
    ensures IsCoefficientText(FixedText(x, d))
    ensures CoefficientValue(FixedText(x, d)) == FixedValue(x, d)
  {
    var w, f := FixedTextShape(x, d);
    var n := FixedScaled(x, d);
    var q := n as real / Pow10(d) as real;
    assert FixedValue(x, d) == if x < 0.0 then -q else q;
    ScaleBack(DigitsValue(w), DigitsValue(f), Pow10(d), n);
    if d == 0 {
      IntegerDecimalValue(x < 0.0, w);
      assert f == "";
    } else {
      PointDecimalValue(x < 0.0, w, f);
    }
  }

  lemma ScaleBack(w: nat, f: nat, p: nat, n: nat)
    requires p > 0 && w * p + f == n
    ensures w as real + f as real / p as real == n as real / p as real
  {
    assert (w * p) as real == w as real * p as real;
    var q := p as real;
    assert (w as real + f as real / q) * q == w as real * q + f as real;
  }

  lemma FixedTextNoChar(x: real, d: nat, c: char)
    requires !IsDigit(c) && c != '.' && c != '-'
    ensures NoChar(FixedText(x, d), c)
  {
    var w, f := FixedTextShape(x, d);
  }

  // ---------------------------------------------------------------------------
  // Rounding

  /** Rounding to d decimals is off by at most half a unit in the last place. */
  lemma FixedValueError(x: real, d: nat)
    ensures Abs(FixedValue(x, d) - x) <= 0.5 / Pow10(d) as real
  {
    RoundAtError(x, Pow10(d) as real);
  }

  /** Rounding never reverses the order of two numbers. */
  lemma FixedValueMonotone(x: real, y: real, d: nat)
    requires x <= y
    ensures FixedValue(x, d) <= FixedValue(y, d)
  {
    RoundAtMonotone(x, y, Pow10(d) as real);
  }

  /** Every rounded value has at most d decimals. */
  lemma FixedValueOnGrid(x: real, d: nat)
    ensures OnGrid(FixedValue(x, d), d)
  {
    RoundAtOnGrid(x, Pow10(d) as real);
  }

  /** A value that already has at most d decimals is left as it is. */
  lemma FixedValueOfGridPoint(v: real, d: nat)
    requires OnGrid(v, d)
    ensures FixedValue(v, d) == v
  {
    RoundAtGridPoint(v, Pow10(d) as real);
  }

  /** Moving a point with at most 5 decimals by 0.01 either way keeps it on that grid. */
  lemma GridShift(v: real)
    requires OnGrid(v, 5)
    ensures OnGrid(v + 0.01, 5) && OnGrid(v - 0.01, 5)
  {
    assert Pow10(5) == 100000 by {
      assert Pow10(2) == 100;
    }
    ShiftOnGrid(v, 100000.0, 1000);
    ShiftOnGrid(v, 100000.0, -1000);
  }

  /** Adding k units of 1/p to a multiple of 1/p gives a multiple of 1/p. */
  lemma ShiftOnGrid(v: real, p: real, k: int)
    requires p > 0.0 && OnGridAt(v, p)
    ensures OnGridAt(v + k as real / p, p)
  {
    var g := (v * p).Floor;
    assert (v + k as real / p) * p == v * p + k as real;
    IntegerFloor(g + k);
  }

  /** There is only one integer within half a unit of y (counting y + 0.5, not y - 0.5). */
  lemma Unique(y: real, m: int, n: int)
    requires y - 0.5 < m as real <= y + 0.5
    requires y - 0.5 < n as real <= y + 0.5
    ensures m == n
  {
  }

  /** A number n within half a unit of a * p gives n / p within 0.5 / p of a. */
  lemma ErrorBound(a: real, p: real, n: real)
    requires p > 0.0 && a * p - 0.5 < n <= a * p + 0.5
    ensures -0.5 / p < n / p - a <= 0.5 / p
  {
    var e := n / p - a;
    assert e * p == n - a * p;
    assert e == (n - a * p) / p;
  }

  /** Rounding at 1/p moves a number by at most half a unit, 0.5 / p. */
  lemma RoundAtError(x: real, p: real)
    requires p > 0.0
    ensures Abs(RoundAt(x, p) - x) <= 0.5 / p
  {
    var a := Abs(x);
    var m := ScaledMagnitude(x, p) as real / p;
    ErrorBound(a, p, ScaledMagnitude(x, p) as real);
    assert RoundAt(x, p) == if x < 0.0 then -m else m;
  }

  /** Multiplying by a positive factor keeps order. */
  lemma MultiplyMonotone(a: real, b: real, p: real)
    requires a <= b && p > 0.0
    ensures a * p <= b * p
  {
  }

  /** Dividing by a positive divisor keeps order. */
  lemma DivideMonotone(a: real, b: real, p: real)
    requires a <= b && p > 0.0
    ensures a / p <= b / p
  {
  }

  /** The nearest integers (ties up) of two ordered numbers are in the same order. */
  lemma Ordered(y: real, z: real, m: int, n: int)
    requires y <= z
    requires y - 0.5 < m as real <= y + 0.5
    requires z - 0.5 < n as real <= z + 0.5
    ensures m <= n
  {
  }

  /** The rounded magnitude grows with the magnitude. */
  lemma MagnitudeMonotone(x: real, y: real, p: real)
    requires p > 0.0 && Abs(x) <= Abs(y)
    ensures ScaledMagnitude(x, p) <= ScaledMagnitude(y, p)
  {
    RoundedOrder(Abs(x), Abs(y), p, ScaledMagnitude(x, p), ScaledMagnitude(y, p));
  }

  /** Scaling by p and then taking the nearest integer keeps order. */
  lemma RoundedOrder(a: real, b: real, p: real, m: int, n: int)
    requires a <= b && p > 0.0
    requires a * p - 0.5 < m as real <= a * p + 0.5
    requires b * p - 0.5 < n as real <= b * p + 0.5
    ensures m <= n
  {
    var u, w := a * p, b * p;
    MultiplyMonotone(a, b, p);
    Ordered(u, w, m, n);
  }

  /** Rounding at 1/p is monotone: it never swaps two numbers. */
  lemma RoundAtMonotone(x: real, y: real, p: real)
    requires x <= y && p > 0.0
    ensures RoundAt(x, p) <= RoundAt(y, p)
  {
    var m, n := ScaledMagnitude(x, p) as real, ScaledMagnitude(y, p) as real;
    if 0.0 <= x {
      MagnitudeMonotone(x, y, p);
      DivideMonotone(m, n, p);
    } else if y < 0.0 {
      MagnitudeMonotone(y, x, p);
      DivideMonotone(n, m, p);
    } else {
      DivideMonotone(0.0, m, p);
      DivideMonotone(0.0, n, p);
    }
  }

  /** Dividing by p and multiplying back gives the number again. */
  lemma ScaleUp(n: real, p: real)
    requires p > 0.0
    ensures (n / p) * p == n
  {
  }

  /** Negation commutes with scaling. */
  lemma Negate(m: real, p: real)
    ensures (-m) * p == -(m * p)
  {
  }

  /** The floor of an integer is the integer itself. */
  lemma IntegerFloor(g: int)
    ensures (g as real).Floor == g
  {
  }

  /** Rounding at 1/p always lands on a multiple of 1/p. */
  lemma RoundAtOnGrid(x: real, p: real)
    requires p > 0.0
    ensures OnGridAt(RoundAt(x, p), p)
  {
    var n := ScaledMagnitude(x, p);
    var m := n as real / p;
    ScaleUp(n as real, p);
    var g: int := if x < 0.0 then -(n as int) else n;
    assert RoundAt(x, p) * p == g as real by {
      if x < 0.0 {
        Negate(m, p);
      }
    }
    IntegerFloor(g);
  }

  /** If v * p == g then v == g / p. */
  lemma ScaleDown(v: real, p: real, g: real)
    requires p > 0.0 && v * p == g
    ensures v == g / p
  {
  }

  /** A multiple of 1/p is left unchanged by rounding at 1/p. */
  lemma RoundAtGridPoint(v: real, p: real)
    requires p > 0.0 && OnGridAt(v, p)
    ensures RoundAt(v, p) == v
  {
    var g := (v * p).Floor;
    var a: int := if v < 0.0 then -g else g;
    assert Abs(v) * p == a as real by {
      Negate(v, p);
    }
    Unique(Abs(v) * p, ScaledMagnitude(v, p), a);
    ScaleDown(Abs(v), p, a as real);
  }
}

=== FILE: equation.dfy ===
/**
  The equation line shown above the coefficient fields: one term per non-zero
  coefficient, leading term first, joined with " + ", every "+ -" turned into
  "- ", and " = 0" appended; "0 = 0" when every coefficient is zero.
*/
module Equation {
  import opened Text

  /** Integers up to this size print as plain digits in JavaScript; larger ones use an exponent. */
  const PlainIntegerLimit: real := 1000000000000000000000.0

  /**
    What the model needs of JavaScript's number-to-string conversion (`term += coeff`):
    it never yields an empty text or a space, and it prints an integer of moderate
    size as its decimal digits.
  */
  ghost predicate IsNumberText(numberText: real -> string) {
    && (forall x: real :: |numberText(x)| > 0 && NoChar(numberText(x), ' '))
    && (forall x: real :: x.Floor as real == x && -PlainIntegerLimit < x < PlainIntegerLimit ==> numberText(x) == IntText(x.Floor))
  }

  /** The exponent written after 'x': the superscript table for powers up to 5, `^p` beyond. */
  function Superscript(p: nat): string {
    if p == 0 then "\U{2070}" else if p == 1 then "\U{00B9}" else if p == 2 then "\U{00B2}"
    else if p == 3 then "\U{00B3}" else if p == 4 then "\U{2074}" else if p == 5 then "\U{2075}"
    else "^" + NatText(p)
  }

  /** The numeral of a term: none for 1, a bare '-' for -1, the printed number otherwise. */
  function Numeral(c: real, numberText: real -> string): string {
    if c != 1.0 && c != -1.0 then numberText(c) else if c == -1.0 then "-" else ""
  }

  /** The power part of a term: 'x' with its exponent, or "1" for a constant term of 1 or -1. */
  function PowerText(c: real, p: nat): string {
    if p > 0 then "x" + (if p > 1 then Superscript(p) else "") else if c == 1.0 || c == -1.0 then "1" else ""
  }

  /** The term for a non-zero coefficient c of x^p: its numeral, then its power part. */
  function Term(c: real, p: nat, numberText: real -> string): string {
    Numeral(c, numberText) + PowerText(c, p)
  }

  /** `Term` as a function of the coefficient and the power, for a fixed number printer. */
  function TermOf(numberText: real -> string): (real, nat) -> string {
    (c: real, p: nat) => Term(c, p, numberText)
  }

  /**
    The terms for the first k coefficients of cs, each non-zero coefficient written
    by render with its power (the coefficient at i multiplies x^(|cs|-1-i)).
  */
  function TermsUpTo(cs: seq<real>, k: nat, render: (real, nat) -> string): seq<string>
    requires k <= |cs|
  {
    if k == 0 then []
    else if cs[k - 1] == 0.0 then TermsUpTo(cs, k - 1, render)
    else TermsUpTo(cs, k - 1, render) + [render(cs[k - 1], |cs| - k)]
  }

  /** The terms the loop of `updateEquation` collects for cs. */
  function Terms(cs: seq<real>, numberText: real -> string): seq<string> {
    TermsUpTo(cs, |cs|, TermOf(numberText))
  }

  /** The text `updateEquation` stores for the coefficient list cs. */
  function EquationText(cs: seq<real>, numberText: real -> string): string {
    var terms := Terms(cs, numberText);
    if |terms| > 0 then ReplaceAll(Join(terms, " + "), "+ -", "- ") + " = 0" else "0 = 0"
  }

  /**
    The terms written one after the other as a sum should read: the first as it is,
    each later one after " - " with its minus sign dropped when it has one, after
    " + " otherwise.
  */
  function Collapsed(ts: seq<string>): string {
    if ts == [] then "" else ts[0] + SignedRest(ts[1..])
  }

  function SignedRest(ts: seq<string>): string {
    if ts == [] then ""
    else (if |ts[0]| > 0 && ts[0][0] == '-' then " - " + ts[0][1..] else " + " + ts[0]) + SignedRest(ts[1..])
  }

  /** A part that can be joined and collapsed safely: non-empty and without spaces. */
  predicate Plain(t: string) {
    |t| > 0 && NoChar(t, ' ')
  }

  // ---------------------------------------------------------------------------
  // Sign collapsing

  /**
    Joining space-free terms with " + " and replacing every "+ -" by "- " yields
    the terms written as a sum with the signs collapsed.
  */
  lemma {:induction false} CollapseJoin(ts: seq<string>)
    requires |ts| > 0 && forall k :: 0 <= k < |ts| ==> Plain(ts[k])
    ensures ReplaceAll(Join(ts, " + "), "+ -", "- ") == Collapsed(ts)
    decreases |ts|
  {
    if |ts| == 1 {
      CollapseOne(ts);
    } else {
      CollapseJoin(ts[1..]);
      CollapseCons(ts);
    }
  }

  lemma CollapseOne(ts: seq<string>)
    requires |ts| == 1 && NoChar(ts[0], ' ')
    ensures ReplaceAll(Join(ts, " + "), "+ -", "- ") == Collapsed(ts)
  {
    SkipPlain(ts[0], "");
    assert ts[0] + "" == ts[0];
    assert ts[1..] == [];
  }

  /** The inductive step: collapsing the terms after the first, then putting the first in front. */
  lemma CollapseCons(ts: seq<string>)
    requires |ts| >= 2 && NoChar(ts[0], ' ') && |ts[1]| > 0
    requires ReplaceAll(Join(ts[1..], " + "), "+ -", "- ") == Collapsed(ts[1..])
    ensures ReplaceAll(Join(ts, " + "), "+ -", "- ") == Collapsed(ts)
  {
    var rest := ts[1..];
    var j := Join(rest, " + ");
    FirstSkipped(ts);
    assert |j| > 0 && j[0] == rest[0][0] by {
      JoinStart(rest, " + ");
      assert j[..|rest[0]|][0] == j[0];
    }
    SignedStep(j, rest[0], SignedRest(rest[1..]));
  }

  /** The first term holds no "+ -", and neither does its boundary with " + ". */
  lemma FirstSkipped(ts: seq<string>)
    requires |ts| >= 2 && NoChar(ts[0], ' ')
    ensures ReplaceAll(Join(ts, " + "), "+ -", "- ") == ts[0] + ReplaceAll(" + " + Join(ts[1..], " + "), "+ -", "- ")
  {
    var j := Join(ts[1..], " + ");
    JoinCons(ts, " + ");
    assert (" + " + j)[..3] == " + ";
    SkipPlain(ts[0], " + " + j);
  }

  /** " + " before the collapsed rest becomes the separator SignedRest writes. */
  lemma SignedStep(j: string, t1: string, sr: string)
    requires |j| > 0 && |t1| > 0 && j[0] == t1[0]
    requires ReplaceAll(j, "+ -", "- ") == t1 + sr
    ensures ReplaceAll(" + " + j, "+ -", "- ") == (if t1[0] == '-' then " - " + t1[1..] else " + " + t1) + sr
  {
    if t1[0] == '-' {
      MinusStep(j, t1, sr);
    } else {
      PlusStep(j);
      Associate(" + ", t1, sr);
    }
  }

  lemma JoinCons(ts: seq<string>, sep: string)
    requires |ts| >= 2
    ensures Join(ts, sep) == ts[0] + (sep + Join(ts[1..], sep))
  {
  }

  /** " + " followed by a text that starts with '-' collapses into " - ". */
  lemma MinusStep(j: string, t1: string, sr: string)
    requires |j| > 0 && j[0] == '-' && |t1| > 0 && t1[0] == '-'
    requires ReplaceAll(j, "+ -", "- ") == t1 + sr
    ensures ReplaceAll(" + " + j, "+ -", "- ") == " - " + t1[1..] + sr
  {
    MinusHead(j);
    MinusTail(j, t1, sr);
  }

  lemma MinusHead(j: string)
    requires |j| > 0 && j[0] == '-'
    ensures ReplaceAll(" + " + j, "+ -", "- ") == " - " + ReplaceAll(j[1..], "+ -", "- ")
  {
    SpaceFront(j);
    PlusMinusFront(j);
    SpaceThenMinus(ReplaceAll(" + " + j, "+ -", "- "), ReplaceAll("+ " + j, "+ -", "- "), ReplaceAll(j[1..], "+ -", "- "));
  }

  lemma SpaceThenMinus(a: string, b: string, c: string)
    requires a == [' '] + b && b == "- " + c
    ensures a == " - " + c
  {
    assert [' '] + "- " == " - ";
    Associate([' '], "- ", c);
  }

  lemma SpaceFront(j: string)
    ensures ReplaceAll(" + " + j, "+ -", "- ") == [' '] + ReplaceAll("+ " + j, "+ -", "- ")
  {
    var s := " + " + j;
    NoMatchAt(s, 0, "+ -", 0);
    ReplaceAllNoMatch(s, "+ -", "- ");
    assert s[1..] == "+ " + j;
  }

  lemma PlusMinusFront(j: string)
    requires |j| > 0 && j[0] == '-'
    ensures ReplaceAll("+ " + j, "+ -", "- ") == "- " + ReplaceAll(j[1..], "+ -", "- ")
  {
    PlusMinusParts(j);
    ReplaceAllMatch("+ " + j, "+ -", "- ");
  }

  lemma PlusMinusParts(j: string)
    requires |j| > 0 && j[0] == '-'
    ensures MatchAt("+ " + j, 0, "+ -") && ("+ " + j)[3..] == j[1..]
  {
    var u := "+ " + j;
    assert u[..3] == "+ -";
  }

  lemma MinusTail(j: string, t1: string, sr: string)
    requires |j| > 0 && j[0] == '-' && |t1| > 0 && t1[0] == '-'
    requires ReplaceAll(j, "+ -", "- ") == t1 + sr
    ensures ReplaceAll(j[1..], "+ -", "- ") == t1[1..] + sr
  {
    assert [j[0]] + j[1..] == j;
    LeadingCharSkip('-', j[1..]);
    DropFirst(ReplaceAll(j[1..], "+ -", "- "), t1, sr);
  }

  /** A first character other than '+' cannot start a match. */
  lemma LeadingCharSkip(c: char, v: string)
    requires c != '+'
    ensures ReplaceAll([c] + v, "+ -", "- ") == [c] + ReplaceAll(v, "+ -", "- ")
  {
    NoMatchAt([c] + v, 0, "+ -", 0);
    ReplaceAllSkip([c], v, "+ -", "- ");
  }

  lemma DropFirst(tail: string, t1: string, sr: string)
    requires |t1| > 0 && t1[0] == '-' && ['-'] + tail == t1 + sr
    ensures tail == t1[1..] + sr
  {
    assert (['-'] + tail)[1..] == tail;
    assert (t1 + sr)[1..] == t1[1..] + sr;
  }

  /** " + " followed by a text that does not start with '-' is left as it is. */
  lemma PlusStep(j: string)
    requires |j| > 0 && j[0] != '-'
    ensures ReplaceAll(" + " + j, "+ -", "- ") == " + " + ReplaceAll(j, "+ -", "- ")
  {
    PlusNoMatch(j);
    ReplaceAllSkip(" + ", j, "+ -", "- ");
  }

  lemma PlusNoMatch(j: string)
    requires |j| > 0 && j[0] != '-'
    ensures forall k :: 0 <= k < |" + "| ==> !MatchAt(" + " + j, k, "+ -")
  {
    var u := " + " + j;
    NoMatchAt(u, 0, "+ -", 0);
    NoMatchAt(u, 1, "+ -", 2);
    NoMatchAt(u, 2, "+ -", 0);
  }

  /** In a space-free text followed by " + ..." or by nothing, no "+ -" starts. */
  lemma SkipPlain(t: string, b: string)
    requires NoChar(t, ' ')
    requires b == [] || (|b| >= 3 && b[..3] == " + ")
    ensures ReplaceAll(t + b, "+ -", "- ") == t + ReplaceAll(b, "+ -", "- ")
  {
    var s := t + b;
    forall k | 0 <= k < |t|
      ensures !MatchAt(s, k, "+ -")
    {
      if k + 1 < |t| {
        assert s[k + 1] == t[k + 1];
        NoMatchAt(s, k, "+ -", 1);
      } else {
        NoMatchAt(s, k, "+ -", 2);
      }
    }
    ReplaceAllSkip(t, b, "+ -", "- ");
  }

  lemma JoinStart(ts: seq<string>, sep: string)
    requires |ts| > 0
    ensures |Join(ts, sep)| >= |ts[0]| && Join(ts, sep)[..|ts[0]|] == ts[0]
  {
    if |ts| > 1 {
      assert Join(ts, sep) == ts[0] + (sep + Join(ts[1..], sep));
    }
  }

  // ---------------------------------------------------------------------------
  // Terms

  lemma SuperscriptPlain(p: nat)
    ensures Plain(Superscript(p))
  {
    if p >= 6 {
      NatTextNoChar(p, ' ');
    }
  }

  /** A term is never empty and never holds a space. */
  lemma TermPlain(c: real, p: nat, numberText: real -> string)
    requires IsNumberText(numberText) && c != 0.0
    ensures Plain(Term(c, p, numberText))
  {
    SuperscriptPlain(p);
    var t := Term(c, p, numberText);
    if c != 1.0 && c != -1.0 {
      assert |numberText(c)| > 0 && NoChar(numberText(c), ' ');
    }
  }

  lemma TermOfPlain(numberText: real -> string)
    requires IsNumberText(numberText)
    ensures forall c: real, p: nat :: c != 0.0 ==> Plain(TermOf(numberText)(c, p))
  {
    forall c: real, p: nat | c != 0.0
      ensures Plain(TermOf(numberText)(c, p))
    {
      TermPlain(c, p, numberText);
    }
  }

  lemma {:induction false} TermsPlain(cs: seq<real>, k: nat, render: (real, nat) -> string)
    requires k <= |cs| && forall c: real, p: nat :: c != 0.0 ==> Plain(render(c, p))
    ensures forall m :: 0 <= m < |TermsUpTo(cs, k, render)| ==> Plain(TermsUpTo(cs, k, render)[m])
  {
    if k > 0 {
      TermsPlain(cs, k - 1, render);
      TermsUpToLast(cs, k, render);
      if cs[k - 1] != 0.0 {
        PlainAppend(TermsUpTo(cs, k - 1, render), render(cs[k - 1], |cs| - 1 - (k - 1)));
      }
    }
  }

  lemma PlainAppend(ts: seq<string>, t: string)
    requires (forall m :: 0 <= m < |ts| ==> Plain(ts[m])) && Plain(t)
    ensures forall m :: 0 <= m < |ts + [t]| ==> Plain((ts + [t])[m])
  {
    forall m | 0 <= m < |ts + [t]|
      ensures Plain((ts + [t])[m])
    {
      if m < |ts| {
        assert (ts + [t])[m] == ts[m];
      }
    }
  }

  /** The last step of TermsUpTo, with the power of x written as for position k - 1. */
  lemma TermsUpToLast(cs: seq<real>, k: nat, render: (real, nat) -> string)
    ensures 0 < k <= |cs| && cs[k - 1] == 0.0 ==> TermsUpTo(cs, k, render) == TermsUpTo(cs, k - 1, render)
    ensures 0 < k <= |cs| && cs[k - 1] != 0.0 ==>
              TermsUpTo(cs, k, render) == TermsUpTo(cs, k - 1, render) + [render(cs[k - 1], |cs| - 1 - (k - 1))]
  {
    if 0 < k <= |cs| {
      assert |cs| - 1 - (k - 1) == |cs| - k;
    }
  }

  /**
    The terms come one per non-zero coefficient, from the leading coefficient to
    the constant: idx lists, increasing, the positions of the non-zero coefficients,
    and the m-th term renders the coefficient at idx[m] with power |cs|-1-idx[m].
  */
  lemma TermsPositions(cs: seq<real>, numberText: real -> string)
    returns (idx: seq<nat>)
    ensures ListsNonZero(cs, |cs|, idx)
    ensures |Terms(cs, numberText)| == |idx|
    ensures forall m :: 0 <= m < |idx| ==> Terms(cs, numberText)[m] == Term(cs[idx[m]], |cs| - 1 - idx[m], numberText)
  {
    idx := NonZeroPositions(cs, |cs|);
    PositionsListed(cs, |cs|);
    PositionsRendered(cs, |cs|, TermOf(numberText));
  }

  /** The positions below k of non-zero coefficients, in increasing order. */
  function NonZeroPositions(cs: seq<real>, k: nat): seq<nat>
    requires k <= |cs|
  {
    if k == 0 then []
    else
      var before := NonZeroPositions(cs, k - 1);
      if cs[k - 1] != 0.0 then before + [k - 1] else before
  }

  lemma {:induction false} PositionsListed(cs: seq<real>, k: nat)
    requires k <= |cs|
    ensures ListsNonZero(cs, k, NonZeroPositions(cs, k))
  {
    if k > 0 {
      PositionsListed(cs, k - 1);
      ListsStep(cs, k, NonZeroPositions(cs, k - 1));
    }
  }

  lemma {:induction false} PositionsRendered(cs: seq<real>, k: nat, render: (real, nat) -> string)
    requires k <= |cs|
    ensures RendersAt(cs, TermsUpTo(cs, k, render), NonZeroPositions(cs, k), render)
  {
    if k > 0 {
      PositionsRendered(cs, k - 1, render);
      RendersStep(cs, k, render, NonZeroPositions(cs, k - 1));
    }
  }

  /** idx lists, increasing, exactly the positions below k of non-zero coefficients. */
  predicate ListsNonZero(cs: seq<real>, k: nat, idx: seq<nat>)
    requires k <= |cs|
  {
    && (forall m :: 0 <= m < |idx| ==> idx[m] < k && cs[idx[m]] != 0.0)
    && (forall m, l :: 0 <= m < l < |idx| ==> idx[m] < idx[l])
    && (forall i :: 0 <= i < k && cs[i] != 0.0 ==> i in idx)
  }

  /** The m-th term renders the coefficient at idx[m] with its power. */
  predicate RendersAt(cs: seq<real>, ts: seq<string>, idx: seq<nat>, render: (real, nat) -> string) {
    && |idx| == |ts|
    && forall m :: 0 <= m < |idx| ==> idx[m] < |cs| && ts[m] == render(cs[idx[m]], |cs| - 1 - idx[m])
  }

  lemma ListsStep(cs: seq<real>, k: nat, before: seq<nat>)
    requires 0 < k <= |cs| && ListsNonZero(cs, k - 1, before)
    ensures ListsNonZero(cs, k, if cs[k - 1] != 0.0 then before + [k - 1] else before)
  {
    var idx := if cs[k - 1] != 0.0 then before + [k - 1] else before;
    forall i | 0 <= i < k && cs[i] != 0.0
      ensures i in idx
    {
      if i < k - 1 {
        assert i in before;
      } else {
        assert idx[|idx| - 1] == i;
      }
    }
  }

  lemma RendersStep(cs: seq<real>, k: nat, render: (real, nat) -> string, before: seq<nat>)
    requires 0 < k <= |cs| && RendersAt(cs, TermsUpTo(cs, k - 1, render), before, render)
    ensures RendersAt(cs, TermsUpTo(cs, k, render), if cs[k - 1] != 0.0 then before + [k - 1] else before, render)
  {
    var ts := TermsUpTo(cs, k - 1, render);
    TermsUpToLast(cs, k, render);
    if cs[k - 1] != 0.0 {
      AppendRendered(cs, ts, before, render(cs[k - 1], |cs| - 1 - (k - 1)), k - 1, render);
    }
  }

  lemma AppendRendered(cs: seq<real>, ts: seq<string>, idx: seq<nat>, t: string, i: nat, render: (real, nat) -> string)
    requires RendersAt(cs, ts, idx, render) && i < |cs| && t == render(cs[i], |cs| - 1 - i)
    ensures RendersAt(cs, ts + [t], idx + [i], render)
  {
    var entry := (s: string, j: nat) => j < |cs| && s == render(cs[j], |cs| - 1 - j);
    AppendPointwise(ts, idx, t, i, entry);
  }

  /** A pointwise relation between two lists survives appending a related pair. */
  lemma AppendPointwise(xs: seq<string>, ys: seq<nat>, x: string, y: nat, related: (string, nat) -> bool)
    requires |xs| == |ys| && (forall m :: 0 <= m < |xs| ==> related(xs[m], ys[m])) && related(x, y)
    ensures forall m :: 0 <= m < |xs| + 1 ==> related((xs + [x])[m], (ys + [y])[m])
  {
    forall m | 0 <= m < |xs| + 1
      ensures related((xs + [x])[m], (ys + [y])[m])
    {
      if m < |xs| {
        assert (xs + [x])[m] == xs[m] && (ys + [y])[m] == ys[m];
      }
    }
  }

  /** There are no terms exactly when every coefficient is zero. */
  lemma {:induction false} NoTermsAllZero(cs: seq<real>, k: nat, render: (real, nat) -> string)
    requires k <= |cs|
    ensures |TermsUpTo(cs, k, render)| == 0 <==> forall i :: 0 <= i < k ==> cs[i] == 0.0
  {
    if k > 0 {
      NoTermsAllZero(cs, k - 1, render);
      var before := TermsUpTo(cs, k - 1, render);
      if cs[k - 1] != 0.0 {
        assert |TermsUpTo(cs, k, render)| == |before| + 1;
      } else {
        assert TermsUpTo(cs, k, render) == before;
      }
    }
  }

  /**
    The equation text is "0 = 0" when every coefficient is zero, and otherwise the
    terms written as a sum with collapsed signs followed by " = 0".
  */
  lemma EquationTextShape(cs: seq<real>, numberText: real -> string)
    requires IsNumberText(numberText)
    ensures (forall i :: 0 <= i < |cs| ==> cs[i] == 0.0) ==> EquationText(cs, numberText) == "0 = 0"
    ensures (exists i :: 0 <= i < |cs| && cs[i] != 0.0) ==>
              EquationText(cs, numberText) == Collapsed(Terms(cs, numberText)) + " = 0"
  {
    NoTermsAllZero(cs, |cs|, TermOf(numberText));
    var ts := Terms(cs, numberText);
    if |ts| > 0 {
      TermOfPlain(numberText);
      TermsPlain(cs, |cs|, TermOf(numberText));
      CollapseJoin(ts);
    }
  }

  /**
    A coefficient of 1 or -1 prints no numeral except on the constant term, where
    it prints "1" or "-1"; x^1 prints as "x" and higher powers put the exponent after it.
  */
  lemma UnitTerms(p: nat, numberText: real -> string)
    ensures Term(1.0, 0, numberText) == "1" && Term(-1.0, 0, numberText) == "-1"
    ensures Term(1.0, 1, numberText) == "x" && Term(-1.0, 1, numberText) == "-x"
    ensures p > 1 ==> Term(1.0, p, numberText) == "x" + Superscript(p)
    ensures p > 1 ==> Term(-1.0, p, numberText) == "-x" + Superscript(p)
  {
    UnitConstants(numberText);
    UnitLinear(numberText);
    if p > 1 {
      UnitPowers(p, numberText);
    }
  }

  lemma UnitConstants(numberText: real -> string)
    ensures Term(1.0, 0, numberText) == "1" && Term(-1.0, 0, numberText) == "-1"
  {
    assert Numeral(1.0, numberText) == "" && Numeral(-1.0, numberText) == "-";
    assert PowerText(1.0, 0) == "1" && PowerText(-1.0, 0) == "1";
    assert "" + "1" == "1" && "-" + "1" == "-1";
  }

  lemma UnitLinear(numberText: real -> string)
    ensures Term(1.0, 1, numberText) == "x" && Term(-1.0, 1, numberText) == "-x"
  {
    assert Numeral(1.0, numberText) == "" && Numeral(-1.0, numberText) == "-";
    assert PowerText(1.0, 1) == "x" && PowerText(-1.0, 1) == "x";
    assert "" + "x" == "x" && "-" + "x" == "-x";
  }

  lemma UnitPowers(p: nat, numberText: real -> string)
    requires p > 1
    ensures Term(1.0, p, numberText) == "x" + Superscript(p)
    ensures Term(-1.0, p, numberText) == "-x" + Superscript(p)
  {
    var sp := Superscript(p);
    assert Numeral(1.0, numberText) == "" && Numeral(-1.0, numberText) == "-";
    assert PowerText(1.0, p) == "x" + sp && PowerText(-1.0, p) == "x" + sp;
    SignedPower(sp);
  }

  lemma SignedPower(sp: string)
    ensures "" + ("x" + sp) == "x" + sp && "-" + ("x" + sp) == "-x" + sp
  {
    assert "-" + "x" == "-x";
  }

  /** With the initial coefficients 3, 2, -5, 1 the hook shows its initial equation text. */
  lemma InitialEquation(numberText: real -> string)
    requires IsNumberText(numberText)
    ensures EquationText([3.0, 2.0, -5.0, 1.0], numberText) == "3x\U{00B3} + 2x\U{00B2} - 5x + 1 = 0"
  {
    var cs := [3.0, 2.0, -5.0, 1.0];
    InitialTerms(numberText);
    EquationTextShape(cs, numberText);
    assert cs[0] != 0.0;
    InitialCollapsed();
  }

  lemma InitialTerms(numberText: real -> string)
    requires IsNumberText(numberText)
    ensures Terms([3.0, 2.0, -5.0, 1.0], numberText) == ["3x\U{00B3}", "2x\U{00B2}", "-5x", "1"]
  {
    var cs := [3.0, 2.0, -5.0, 1.0];
    var ts := ["3x\U{00B3}", "2x\U{00B2}", "-5x", "1"];
    InitialNumerals(numberText);
    assert Term(3.0, 3, numberText) == ts[0];
    assert Term(2.0, 2, numberText) == ts[1];
    assert Term(-5.0, 1, numberText) == ts[2];
    assert Term(1.0, 0, numberText) == ts[3];
    var render := TermOf(numberText);
    assert TermsUpTo(cs, 1, render) == ts[..1];
    assert TermsUpTo(cs, 2, render) == ts[..2];
    assert TermsUpTo(cs, 3, render) == ts[..3];
  }

  lemma InitialNumerals(numberText: real -> string)
    requires IsNumberText(numberText)
    ensures numberText(3.0) == "3" && numberText(2.0) == "2" && numberText(-5.0) == "-5"
  {
    assert (3.0).Floor == 3 && (2.0).Floor == 2 && (-5.0).Floor == -5;
    assert numberText(3.0) == IntText(3) == "3";
    assert numberText(2.0) == IntText(2) == "2";
    assert IntText(-5) == "-5" by {
      assert NatText(5) == "5";
    }
  }

  lemma InitialCollapsed()
    ensures Collapsed(["3x\U{00B3}", "2x\U{00B2}", "-5x", "1"]) == "3x\U{00B3} + 2x\U{00B2} - 5x + 1"
  {
    var ts := ["3x\U{00B3}", "2x\U{00B2}", "-5x", "1"];
    var r3: seq<string> := ["1"];
    var r2: seq<string> := ["-5x", "1"];
    var r1: seq<string> := ["2x\U{00B2}", "-5x", "1"];
    assert SignedRest(r3) == " + 1" by {
      assert r3[1..] == [];
    }
    assert SignedRest(r2) == " - 5x + 1" by {
      assert r2[1..] == r3 && r2[0][1..] == "5x";
    }
    assert SignedRest(r1) == " + 2x\U{00B2} - 5x + 1" by {
      assert r1[1..] == r2;
    }
    assert ts[1..] == r1;
  }
}

=== FILE: hook.dfy ===
/**
  The solver hook's state and the operations it hands to the screen. The state
  slots (degree, coefficient texts, equation text, solutions, error message) are
  the fields of a `PolynomialSolver`; the effect that recomputes the equation
  whenever the coefficients or the degree change runs at the end of every method
  that changes them, so the equation always shows the current polynomial.
*/
module Hook {
  import opened Text
  import opened Decimal
  import opened Polynomial
  import opened Solvers
  import opened Numerical
  import opened Equation
  import opened Results

  /** The names of the coefficient fields, leading coefficient first. */
  datatype Key = A | B | C | D | E | F

  const Keys: seq<Key> := [A, B, C, D, E, F]

  const LeadingZeroError: string := "El coeficiente principal (a) no puede ser cero."

  /** The texts the fields hold when the hook starts: 3x³ + 2x² - 5x + 1. */
  const InitialCoefficients: map<Key, string> := map[A := "3", B := "2", C := "-5", D := "1", E := "0", F := "0"]

  /** The texts the fields hold after `clear`. */
  const EmptyCoefficients: map<Key, string> := map[A := "", B := "", C := "", D := "", E := "", F := ""]

  /** Every field is present and holds text the field accepts. */
  predicate Readable(coefficients: map<Key, string>) {
    forall k: Key :: k in coefficients && IsCoefficientText(coefficients[k])
  }

  /**
    `getCoefficientsAsNumbers()`: the fields a, b, ... up to the degree, each read
    with `parseFloat(text) || 0`; positions past the sixth field have no field and read as 0.
  */
  function CoefficientValues(coefficients: map<Key, string>, degree: nat): (cs: seq<real>)
    requires Readable(coefficients)
    ensures |cs| == degree + 1
  {
    seq(degree + 1, i requires 0 <= i <= degree =>
      if i < |Keys| then CoefficientValue(coefficients[Keys[i]]) else 0.0)
  }

  /** What `solve` stores for the coefficients cs (leading one non-zero): it dispatches on the degree |cs| - 1. */
  function SolutionsFor(cs: seq<real>, sqrt: real -> real): seq<Solution>
    requires |cs| > 0 && cs[0] != 0.0 && IsSquareRoot(sqrt)
  {
    if |cs| == 2 then SolveLinear(cs[0], cs[1])
    else if |cs| == 3 then SolveQuadratic(cs[0], cs[1], cs[2], sqrt)
    else NumericalRoots(cs)
  }

  /** v is within 0.000005 of a point where the polynomial cs is below the Newton tolerance. */
  ghost predicate NearRoot(cs: seq<real>, v: real) {
    exists x :: Abs(PolyValue(cs, x)) < Tolerance && Abs(v - x) <= 0.000005
  }

  class PolynomialSolver {
    var degree: nat
    var coefficients: map<Key, string>
    var equation: string
    var solutions: seq<Solution>
    var error: string
    /** How JavaScript prints a number when it is appended to a string. */
    const numberText: real -> string

    ghost predicate Valid()
      reads this`coefficients, this`degree, this`equation
    {
      && Readable(coefficients)
      && IsNumberText(numberText)
      && equation == EquationText(CoefficientValues(coefficients, degree), numberText)
    }

    function Coefficients(): (cs: seq<real>)
      reads this`coefficients, this`degree
      requires Readable(coefficients)
    {
      CoefficientValues(coefficients, degree)
    }

    /** The hook's first render: degree 3, the fields for 3x³ + 2x² - 5x + 1, and its equation text. */
    constructor(numberText: real -> string)
      requires IsNumberText(numberText)
      ensures Valid() && this.numberText == numberText
      ensures degree == 3 && coefficients == InitialCoefficients
      ensures equation == "3x\U{00B3} + 2x\U{00B2} - 5x + 1 = 0"
      ensures solutions == [] && error == ""
    {
      degree := 3;
      coefficients := InitialCoefficients;
      equation := "3x\U{00B3} + 2x\U{00B2} - 5x + 1 = 0";
      solutions := [];
      error := "";
      this.numberText := numberText;
      new;
      InitialValues();
      InitialEquation(numberText);
    }

    /**
      `updateCoefficient(key, value)`: the field takes the text only when it is
      empty or matches `^-?\d*\.?\d*$`; the other fields, the degree, the solutions
      and the error stay as they are, and the equation follows the fields.
    */
    method UpdateCoefficient(key: Key, value: string)
      modifies this`coefficients, this`equation
      requires Valid()
      ensures Valid()
      ensures IsCoefficientText(value) ==> coefficients == old(coefficients)[key := value]
      ensures !IsCoefficientText(value) ==> coefficients == old(coefficients) && equation == old(equation)
    {
      if value == "" || IsCoefficientText(value) {
        EmptyIsCoefficientText();
        coefficients := coefficients[key := value];
        UpdateEquation();
      }
    }

    /** `setDegree(d)`, followed by the equation effect. */
    method SetDegree(d: nat)
      modifies this`degree, this`equation
      requires Valid()
      ensures Valid() && degree == d
    {
      degree := d;
      UpdateEquation();
    }

    /** `updateEquation()`: the equation text for the current fields and degree. */
    method UpdateEquation()
      modifies this`equation
      requires Readable(coefficients)
      ensures equation == EquationText(Coefficients(), numberText)
    {
      var coeffs := GetCoefficientsAsNumbers();
      var terms := BuildTerms(coeffs);
      equation := if |terms| > 0 then ReplaceAll(Join(terms, " + "), "+ -", "- ") + " = 0" else "0 = 0";
    }

    /** The loop of `updateEquation`: one term per non-zero coefficient, highest power first. */
    method BuildTerms(coeffs: seq<real>) returns (terms: seq<string>)
      ensures terms == Terms(coeffs, numberText)
    {
      terms := [];
      var i := 0;
      while i < |coeffs|
        invariant 0 <= i <= |coeffs|
        invariant terms == TermsUpTo(coeffs, i, TermOf(numberText))
      {
        var coeff := coeffs[i];
        if coeff != 0.0 {
          var power := |coeffs| - (i + 1);
          var term := BuildTerm(coeff, power);
          assert TermsUpTo(coeffs, i + 1, TermOf(numberText)) == terms + [term] by {
            TermsUpToLast(coeffs, i + 1, TermOf(numberText));
            assert power == |coeffs| - 1 - (i + 1 - 1);
          }
          terms := terms + [term];
        } else {
          assert TermsUpTo(coeffs, i + 1, TermOf(numberText)) == terms by {
            TermsUpToLast(coeffs, i + 1, TermOf(numberText));
          }
        }
        i := i + 1;
      }
    }

    /** The body of the loop in `updateEquation` that writes one term: numeral first, then the power. */
    method BuildTerm(coeff: real, power: nat) returns (term: string)
      ensures term == Term(coeff, power, numberText)
    {
      term := "";
      if coeff != 1.0 && coeff != -1.0 {
        term := term + numberText(coeff);
      } else if coeff == -1.0 {
        term := term + "-";
      }
      assert term == Numeral(coeff, numberText);
      ghost var numeral := term;
      if power > 0 {
        term := term + "x";
        if power > 1 {
          term := term + Superscript(power);
          Associate(numeral, "x", Superscript(power));
        }
      } else if coeff == 1.0 || coeff == -1.0 {
        term := term + "1";
      }
      assert term == numeral + PowerText(coeff, power);
    }

    /** `getCoefficientsAsNumbers()`. */
    method GetCoefficientsAsNumbers() returns (coeffs: seq<real>)
      requires Readable(coefficients)
      ensures coeffs == Coefficients()
    {
      coeffs := [];
      var i := 0;
      while i <= degree
        invariant 0 <= i <= degree + 1
        invariant coeffs == Coefficients()[..i]
      {
        var value := if i < |Keys| then CoefficientValue(coefficients[Keys[i]]) else 0.0;
        PrefixStep(Coefficients(), i);
        coeffs := coeffs + [value];
        i := i + 1;
      }
    }

    /**
      `solve()`: a zero leading coefficient sets the error message and keeps the old
      solutions; otherwise the error is cleared and the solutions for the current
      coefficients are stored. The answer tells which happened.
    */
    method Solve(sqrt: real -> real) returns (ok: bool)
      modifies this`solutions, this`error
      requires Valid() && IsSquareRoot(sqrt)
      ensures Valid()
      ensures ok <==> Coefficients()[0] != 0.0
      ensures !ok ==> error == LeadingZeroError && solutions == old(solutions)
      ensures ok ==> error == "" && solutions == SolutionsFor(Coefficients(), sqrt)
    {
      error := "";
      var coeffs := GetCoefficientsAsNumbers();
      if coeffs[0] == 0.0 {
        error := LeadingZeroError;
        return false;
      }
      var newSolutions: seq<Solution>;
      if degree == 1 {
        newSolutions := SolveLinear(coeffs[0], coeffs[1]);
      } else if degree == 2 {
        newSolutions := SolveQuadratic(coeffs[0], coeffs[1], coeffs[2], sqrt);
      } else {
        newSolutions := FindNumericalRoots(coeffs);
      }
      assert newSolutions == SolutionsFor(coeffs, sqrt);
      solutions := newSolutions;
      return true;
    }

    /** `clear()`: every field emptied, no solutions, no error, and the equation "0 = 0". */
    method Clear()
      modifies this`coefficients, this`solutions, this`error, this`equation
      requires Valid()
      ensures Valid()
      ensures coefficients == EmptyCoefficients && solutions == [] && error == "" && equation == "0 = 0"
    {
      coefficients := EmptyCoefficients;
      solutions := [];
      error := "";
      equation := "0 = 0";
      ClearedEquation(degree, numberText);
    }
  }

  // ---------------------------------------------------------------------------
  // Lemmas

  /** The initial fields read as 3, 2, -5, 1. */
  lemma InitialValues()
    ensures Readable(InitialCoefficients)
    ensures CoefficientValues(InitialCoefficients, 3) == [3.0, 2.0, -5.0, 1.0]
  {
    InitialReadable();
    InitialFieldValues();
    FirstFourValues(InitialCoefficients, 3.0, 2.0, -5.0, 1.0);
  }

  lemma FirstFourValues(m: map<Key, string>, a: real, b: real, c: real, d: real)
    requires Readable(m)
    requires CoefficientValue(m[A]) == a && CoefficientValue(m[B]) == b
    requires CoefficientValue(m[C]) == c && CoefficientValue(m[D]) == d
    ensures CoefficientValues(m, 3) == [a, b, c, d]
  {
    var cs := CoefficientValues(m, 3);
    assert cs[0] == a && cs[1] == b && cs[2] == c && cs[3] == d;
  }

  lemma InitialFieldValues()
    ensures CoefficientValue(InitialCoefficients[A]) == 3.0 && CoefficientValue(InitialCoefficients[B]) == 2.0
    ensures CoefficientValue(InitialCoefficients[C]) == -5.0 && CoefficientValue(InitialCoefficients[D]) == 1.0
  {
    var m := InitialCoefficients;
    LiteralTexts();
    assert m[A] == "3" && m[B] == "2" && m[C] == "-5" && m[D] == "1";
  }

  lemma InitialReadable()
    ensures Readable(InitialCoefficients)
  {
    LiteralTexts();
    ReadableFields("3", "2", "-5", "1", "0", "0");
  }

  /** Six accepted texts, one per field, make readable fields. */
  lemma ReadableFields(a: string, b: string, c: string, d: string, e: string, f: string)
    requires IsCoefficientText(a) && IsCoefficientText(b) && IsCoefficientText(c)
    requires IsCoefficientText(d) && IsCoefficientText(e) && IsCoefficientText(f)
    ensures Readable(map[A := a, B := b, C := c, D := d, E := e, F := f])
  {
    var m := map[A := a, B := b, C := c, D := d, E := e, F := f];
    forall k: Key
      ensures k in m && IsCoefficientText(m[k])
    {
      match k
      case A => assert m[k] == a;
      case B => assert m[k] == b;
      case C => assert m[k] == c;
      case D => assert m[k] == d;
      case E => assert m[k] == e;
      case F => assert m[k] == f;
    }
  }

  /** The texts of the initial fields and the numbers they read as. */
  lemma LiteralTexts()
    ensures IsCoefficientText("3") && CoefficientValue("3") == 3.0
    ensures IsCoefficientText("2") && CoefficientValue("2") == 2.0
    ensures IsCoefficientText("-5") && CoefficientValue("-5") == -5.0
    ensures IsCoefficientText("1") && CoefficientValue("1") == 1.0
    ensures IsCoefficientText("0") && CoefficientValue("0") == 0.0
  {
    IntTextValue(3);
    IntTextValue(2);
    IntTextValue(-5);
    IntTextValue(1);
    IntTextValue(0);
    assert IntText(3) == "3" && IntText(2) == "2" && IntText(1) == "1" && IntText(0) == "0";
    assert IntText(-5) == "-5" by {
      assert NatText(5) == "5";
    }
  }

  /** After `clear` every coefficient reads as 0, so the equation the effect computes is "0 = 0". */
  lemma ClearedEquation(degree: nat, numberText: real -> string)
    requires IsNumberText(numberText)
    ensures Readable(EmptyCoefficients)
    ensures forall i :: 0 <= i <= degree ==> CoefficientValues(EmptyCoefficients, degree)[i] == 0.0
    ensures EquationText(CoefficientValues(EmptyCoefficients, degree), numberText) == "0 = 0"
  {
    EmptyFields();
    var cs := CoefficientValues(EmptyCoefficients, degree);
    forall i | 0 <= i <= degree
      ensures cs[i] == 0.0
    {
      if i < |Keys| {
        assert EmptyCoefficients[Keys[i]] == "";
      }
    }
    ZeroEquation(cs, numberText);
  }

  lemma EmptyFields()
    ensures Readable(EmptyCoefficients)
    ensures forall k: Key :: k in EmptyCoefficients && EmptyCoefficients[k] == ""
  {
    EmptyIsCoefficientText();
    forall k: Key
      ensures k in EmptyCoefficients && EmptyCoefficients[k] == ""
    {
      assert k == A || k == B || k == C || k == D || k == E || k == F;
    }
  }

  lemma ZeroEquation(cs: seq<real>, numberText: real -> string)
    requires IsNumberText(numberText)
    requires forall i :: 0 <= i < |cs| ==> cs[i] == 0.0
    ensures EquationText(cs, numberText) == "0 = 0"
  {
    EquationTextShape(cs, numberText);
  }

  /**
    Storing the text t in the field at position i changes the number read at i to
    the value of t and leaves every other number as it was.
  */
  lemma StoredTextReadsBack(coefficients: map<Key, string>, degree: nat, i: nat, t: string)
    requires Readable(coefficients) && i < |Keys| && IsCoefficientText(t)
    ensures Readable(coefficients[Keys[i] := t])
    ensures var before, after := CoefficientValues(coefficients, degree), CoefficientValues(coefficients[Keys[i] := t], degree);
            && (i <= degree ==> after[i] == CoefficientValue(t))
            && (forall j :: 0 <= j <= degree && j != i ==> after[j] == before[j])
  {
    var after := CoefficientValues(coefficients[Keys[i] := t], degree);
    forall j | 0 <= j <= degree && j != i && j < |Keys|
      ensures Keys[j] != Keys[i]
    {
    }
  }

  /**
    What `solve` stores answers the equation: for degrees 1 and 2 every real entry
    is an exact root, and when the roots are real every root is listed; complex
    entries of the quadratic are complex roots; for the other degrees every entry
    is within 0.000005 of a point where the polynomial is below 1e-10. There are
    never more entries than the degree.
  */
  lemma SolutionsAreRoots(cs: seq<real>, sqrt: real -> real)
    requires |cs| > 0 && cs[0] != 0.0 && IsSquareRoot(sqrt)
    ensures var r := SolutionsFor(cs, sqrt);
            forall k :: 0 <= k < |r| && !r[k].isComplex && (|cs| == 2 || |cs| == 3) ==> PolyValue(cs, r[k].re) == 0.0
    ensures var r := SolutionsFor(cs, sqrt);
            (|cs| == 2 || (|cs| == 3 && Discriminant(cs[0], cs[1], cs[2]) >= 0.0)) ==>
              forall x :: PolyValue(cs, x) == 0.0 ==> exists k :: 0 <= k < |r| && r[k].re == x
    ensures var r := SolutionsFor(cs, sqrt);
            |cs| == 3 && Discriminant(cs[0], cs[1], cs[2]) < 0.0 ==>
              forall k :: 0 <= k < |r| ==> r[k].isComplex && IsComplexRoot(cs[0], cs[1], cs[2], r[k].re, r[k].im)
    ensures var r := SolutionsFor(cs, sqrt);
            |cs| != 2 && |cs| != 3 ==> forall k :: 0 <= k < |r| ==> !r[k].isComplex && NearRoot(cs, r[k].re)
    ensures |cs| >= 2 ==> |SolutionsFor(cs, sqrt)| <= |cs| - 1
  {
    if |cs| == 2 {
      LinearSolutions(cs, sqrt);
    } else if |cs| == 3 && Discriminant(cs[0], cs[1], cs[2]) >= 0.0 {
      QuadraticRealSolutions(cs, sqrt);
    } else if |cs| == 3 {
      QuadraticComplexSolutions(cs, sqrt);
    } else {
      NumericalSolutions(cs, sqrt);
    }
  }

  lemma LinearSolutions(cs: seq<real>, sqrt: real -> real)
    requires |cs| == 2 && cs[0] != 0.0 && IsSquareRoot(sqrt)
    ensures var r := SolutionsFor(cs, sqrt);
            && (forall k :: 0 <= k < |r| ==> PolyValue(cs, r[k].re) == 0.0)
            && (forall x :: PolyValue(cs, x) == 0.0 ==> exists k :: 0 <= k < |r| && r[k].re == x)
            && |r| <= 1
  {
    var r := SolveLinear(cs[0], cs[1]);
    assert SolutionsFor(cs, sqrt) == r;
    assert cs == [cs[0], cs[1]];
    SolveLinearRoot(cs[0], cs[1]);
    forall x | PolyValue(cs, x) == 0.0
      ensures exists k :: 0 <= k < |r| && r[k].re == x
    {
      assert r[0].re == x;
    }
  }

  lemma QuadraticRealSolutions(cs: seq<real>, sqrt: real -> real)
    requires |cs| == 3 && cs[0] != 0.0 && IsSquareRoot(sqrt) && Discriminant(cs[0], cs[1], cs[2]) >= 0.0
    ensures var r := SolutionsFor(cs, sqrt);
            && (forall k :: 0 <= k < |r| ==> PolyValue(cs, r[k].re) == 0.0)
            && (forall x :: PolyValue(cs, x) == 0.0 ==> exists k :: 0 <= k < |r| && r[k].re == x)
            && |r| <= 2
  {
    var r := SolveQuadratic(cs[0], cs[1], cs[2], sqrt);
    assert SolutionsFor(cs, sqrt) == r;
    assert cs == [cs[0], cs[1], cs[2]];
    SolveQuadraticRealRoots(cs[0], cs[1], cs[2], sqrt);
    forall k | 0 <= k < |r|
      ensures PolyValue(cs, r[k].re) == 0.0
    {
      assert exists j :: 0 <= j < |r| && r[j].re == r[k].re;
    }
  }

  lemma QuadraticComplexSolutions(cs: seq<real>, sqrt: real -> real)
    requires |cs| == 3 && cs[0] != 0.0 && IsSquareRoot(sqrt) && Discriminant(cs[0], cs[1], cs[2]) < 0.0
    ensures var r := SolutionsFor(cs, sqrt);
            && (forall k :: 0 <= k < |r| ==> r[k].isComplex && IsComplexRoot(cs[0], cs[1], cs[2], r[k].re, r[k].im))
            && |r| <= 2
  {
    SolveQuadraticComplexRoots(cs[0], cs[1], cs[2], sqrt);
  }

  lemma NumericalSolutions(cs: seq<real>, sqrt: real -> real)
    requires |cs| != 2 && |cs| != 3 && |cs| > 0 && cs[0] != 0.0 && IsSquareRoot(sqrt)
    ensures var r := SolutionsFor(cs, sqrt);
            && (forall k :: 0 <= k < |r| ==> !r[k].isComplex && NearRoot(cs, r[k].re))
            && (|cs| >= 2 ==> |r| <= |cs| - 1)
  {
    NumericalNearRoots(cs);
    if |cs| >= 2 {
      NumericalRootsBound(cs);
    }
  }

  /** Every root the seed scan stores lies within 0.000005 of a point Newton accepted. */
  lemma NumericalNearRoots(cs: seq<real>)
    ensures forall k :: 0 <= k < |NumericalRoots(cs)| ==> NearRoot(cs, NumericalRoots(cs)[k].re)
  {
    var roots := Scan(cs, Seeds, []);
    var idx := NumericalRootsFromSeeds(cs);
    forall k | 0 <= k < |roots|
      ensures NearRoot(cs, roots[k])
    {
      var g := Seeds[idx[k]];
      assert AcceptedFrom(cs, g, roots[k]);
      var x := NewtonFrom(cs, g, Tolerance, MaxIterations).value;
      var _ := NewtonFromConverged(cs, g, Tolerance, MaxIterations);
      FixedValueError(x, StoredDecimals);
      FiveDecimals();
      assert Abs(roots[k] - x) <= 0.000005;
    }
  }
}

=== FILE: numerical.dfy ===
/**
  The numerical root search used for degrees 3 to 5: Newton-Raphson from a seed,
  with two exits (a small residual, a flat derivative) and a bounded number of
  passes; then a scan over nine seeds that keeps a candidate only when it lies
  at least 0.01 away from every root kept so far and its residual is below 0.001,
  stores it rounded to 5 decimals, and stops once it holds one root fewer than
  there are coefficients.
*/
module Numerical {
  import opened Polynomial
  import opened Decimal
  import opened Solvers

  datatype Option<T> = None | Some(value: T)

  /** The default `tolerance` of `newtonRaphson`: 1e-10. */
  const Tolerance: real := 0.0000000001
  /** The default `maxIterations` of `newtonRaphson`. */
  const MaxIterations: nat := 1000
  /** The seeds, in the order they are tried. */
  const Seeds: seq<real> := [-10.0, -5.0, -2.0, -1.0, 0.0, 1.0, 2.0, 5.0, 10.0]
  /** Two roots closer than this are taken to be the same root. */
  const Separation: real := 0.01
  /** A candidate is kept only when |f| is below this at it. */
  const ResidualBound: real := 0.001
  /** Roots are stored as `Number(root.toFixed(5))`. */
  const StoredDecimals: nat := 5

  // ---------------------------------------------------------------------------
  // Newton-Raphson

  /**
    The answer of `newtonRaphson(f, df, x, tol, n)` for f the polynomial cs and df
    its derivative: at most n passes, each returning x when |f(x)| < tol, giving
    up when |f'(x)| < tol, and otherwise moving to x - f(x)/f'(x).
  */
  function NewtonFrom(cs: seq<real>, x: real, tol: real, n: nat): Option<real>
    requires tol > 0.0
    decreases n
  {
    if n == 0 then None
    else
      var fx := PolyValue(cs, x);
      var fpx := DerivValue(cs, x);
      if Abs(fx) < tol then Some(x)
      else if Abs(fpx) < tol then None
      else NewtonFrom(cs, x - fx / fpx, tol, n - 1)
  }

  /** One Newton step (the point itself where the derivative vanishes). */
  function Step(cs: seq<real>, x: real): real {
    var fpx := DerivValue(cs, x);
    if fpx == 0.0 then x else x - PolyValue(cs, x) / fpx
  }

  /** The k-th Newton iterate from x. */
  function Iterate(cs: seq<real>, x: real, k: nat): real
    decreases k
  {
    if k == 0 then x else Iterate(cs, Step(cs, x), k - 1)
  }

  /** Neither exit was taken at the k-th iterate: its residual and its slope are both at least tol. */
  predicate Continues(cs: seq<real>, x: real, tol: real, k: nat) {
    var y := Iterate(cs, x, k);
    Abs(PolyValue(cs, y)) >= tol && Abs(DerivValue(cs, y)) >= tol
  }

  /** The k-th iterate is the first one with a residual below tol, and no pass before it gave up. */
  predicate ConvergesAt(cs: seq<real>, x: real, tol: real, k: nat) {
    && Abs(PolyValue(cs, Iterate(cs, x, k))) < tol
    && forall j :: 0 <= j < k ==> Continues(cs, x, tol, j)
  }

  /** `newtonRaphson(polynomialFunction(cs), polynomialDerivative(cs), initialGuess, tolerance, maxIterations)`. */
  method NewtonRaphson(cs: seq<real>, initialGuess: real, tolerance: real, maxIterations: nat)
    returns (root: Option<real>)
    requires tolerance > 0.0
    ensures root == NewtonFrom(cs, initialGuess, tolerance, maxIterations)
  {
    var x := initialGuess;
    var i := 0;
    while i < maxIterations
      invariant 0 <= i <= maxIterations
      invariant NewtonFrom(cs, x, tolerance, maxIterations - i) == NewtonFrom(cs, initialGuess, tolerance, maxIterations)
    {
      var fx := PolynomialFunction(cs, x);
      var fpx := PolynomialDerivative(cs, x);
      if Abs(fx) < tolerance {
        return Some(x);
      }
      if Abs(fpx) < tolerance {
        break;
      }
      x := x - fx / fpx;
      i := i + 1;
    }
    return None;
  }

  /**
    A non-null answer is the first iterate, within the pass budget, whose residual
    is below tol: so its residual is below tol, and Newton never gave up before it.
  */
  lemma {:induction false} NewtonFromConverged(cs: seq<real>, x: real, tol: real, n: nat)
    returns (k: nat)
    requires tol > 0.0 && NewtonFrom(cs, x, tol, n).Some?
    ensures k < n && ConvergesAt(cs, x, tol, k)
    ensures NewtonFrom(cs, x, tol, n).value == Iterate(cs, x, k)
    ensures Abs(PolyValue(cs, NewtonFrom(cs, x, tol, n).value)) < tol
    decreases n
  {
    if Abs(PolyValue(cs, x)) < tol {
      k := 0;
    } else {
      var y := Step(cs, x);
      var k' := NewtonFromConverged(cs, y, tol, n - 1);
      k := k' + 1;
      assert Continues(cs, x, tol, 0);
      forall j | 0 <= j < k
        ensures Continues(cs, x, tol, j)
      {
        if j > 0 {
          assert Continues(cs, y, tol, j - 1);
        }
      }
    }
  }

  /** Conversely, when the k-th iterate converges first and k is within the budget, that iterate is the answer. */
  lemma {:induction false} NewtonFromFirstConvergent(cs: seq<real>, x: real, tol: real, n: nat, k: nat)
    requires tol > 0.0 && k < n && ConvergesAt(cs, x, tol, k)
    ensures NewtonFrom(cs, x, tol, n) == Some(Iterate(cs, x, k))
    decreases k
  {
    if k > 0 {
      assert Continues(cs, x, tol, 0);
      var y := Step(cs, x);
      forall j | 0 <= j < k - 1
        ensures Continues(cs, y, tol, j)
      {
        assert Continues(cs, x, tol, j + 1);
      }
      NewtonFromFirstConvergent(cs, y, tol, n - 1, k - 1);
    }
  }

  /** When the derivative flattens at the k-th iterate before any residual got small, the answer is null. */
  lemma {:induction false} NewtonFromStalls(cs: seq<real>, x: real, tol: real, n: nat, k: nat)
    requires tol > 0.0 && k < n
    requires forall j :: 0 <= j < k ==> Continues(cs, x, tol, j)
    requires Abs(PolyValue(cs, Iterate(cs, x, k))) >= tol && Abs(DerivValue(cs, Iterate(cs, x, k))) < tol
    ensures NewtonFrom(cs, x, tol, n) == None
    decreases k
  {
    if k > 0 {
      assert Continues(cs, x, tol, 0);
      var y := Step(cs, x);
      forall j | 0 <= j < k - 1
        ensures Continues(cs, y, tol, j)
      {
        assert Continues(cs, x, tol, j + 1);
      }
      NewtonFromStalls(cs, y, tol, n - 1, k - 1);
    }
  }

  /** When every pass of the budget continues, the budget runs out and the answer is null. */
  lemma {:induction false} NewtonFromExhausted(cs: seq<real>, x: real, tol: real, n: nat)
    requires tol > 0.0
    requires forall j :: 0 <= j < n ==> Continues(cs, x, tol, j)
    ensures NewtonFrom(cs, x, tol, n) == None
    decreases n
  {
    if n > 0 {
      assert Continues(cs, x, tol, 0);
      var y := Step(cs, x);
      forall j | 0 <= j < n - 1
        ensures Continues(cs, y, tol, j)
      {
        assert Continues(cs, x, tol, j + 1);
      }
      NewtonFromExhausted(cs, y, tol, n - 1);
    }
  }

  // ---------------------------------------------------------------------------
  // The seed scan

  /** `roots.some(r => Math.abs(r - x) < 0.01)`. */
  predicate NearAny(roots: seq<real>, x: real) {
    exists i :: 0 <= i < |roots| && Abs(roots[i] - x) < Separation
  }

  /** The roots list after trying one seed. */
  function Consider(cs: seq<real>, guess: real, roots: seq<real>): seq<real> {
    match NewtonFrom(cs, guess, Tolerance, MaxIterations)
    case None => roots
    case Some(x) =>
      if !NearAny(roots, x) && Abs(PolyValue(cs, x)) < ResidualBound then roots + [FixedValue(x, StoredDecimals)]
      else roots
  }

  /** The roots list after trying the seeds in order from `roots`, stopping once it holds |cs| - 1 entries. */
  function Scan(cs: seq<real>, seeds: seq<real>, roots: seq<real>): seq<real>
    decreases |seeds|
  {
    if seeds == [] then roots
    else
      var next := Consider(cs, seeds[0], roots);
      if |next| >= |cs| - 1 then next else Scan(cs, seeds[1..], next)
  }

  /** `findNumericalRoots(cs)`. */
  function NumericalRoots(cs: seq<real>): (r: seq<Solution>)
    ensures forall i :: 0 <= i < |r| ==> r[i] == RealSolution(r[i].re)
  {
    AsSolutions(Scan(cs, Seeds, []))
  }

  /** `roots.map(real => ({ real, imag: 0, isComplex: false }))`. */
  function AsSolutions(roots: seq<real>): (r: seq<Solution>)
    ensures |r| == |roots|
    ensures forall i :: 0 <= i < |r| ==> r[i] == RealSolution(roots[i])
  {
    seq(|roots|, i requires 0 <= i < |roots| => RealSolution(roots[i]))
  }

  /** `findNumericalRoots(coeffs)` as the hook runs it. */
  method FindNumericalRoots(cs: seq<real>) returns (solutions: seq<Solution>)
    ensures solutions == NumericalRoots(cs)
  {
    var roots: seq<real> := [];
    var i := 0;
    while i < |Seeds|
      invariant 0 <= i <= |Seeds|
      invariant Scan(cs, Seeds[i..], roots) == Scan(cs, Seeds, [])
    {
      var guess := Seeds[i];
      ghost var before := roots;
      var root := NewtonRaphson(cs, guess, Tolerance, MaxIterations);
      if root.Some? {
        var isUnique := !NearAny(roots, root.value);
        var residual := PolynomialFunction(cs, root.value);
        if isUnique && Abs(residual) < ResidualBound {
          roots := roots + [FixedValue(root.value, StoredDecimals)];
        }
      }
      assert roots == Consider(cs, guess, before);
      if |roots| >= |cs| - 1 {
        assert roots == Scan(cs, Seeds[i..], before);
        break;
      }
      assert Seeds[i..][1..] == Seeds[i + 1..];
      i := i + 1;
    }
    solutions := AsSolutions(roots);
  }

  // ---------------------------------------------------------------------------
  // What the scan keeps

  /** Every stored root has at most 5 decimals. */
  predicate AllOnGrid(roots: seq<real>) {
    forall i :: 0 <= i < |roots| ==> OnGrid(roots[i], StoredDecimals)
  }

  /** Any two stored roots are at least 0.01 apart. */
  predicate Separated(roots: seq<real>) {
    forall i, j :: 0 <= i < j < |roots| ==> Abs(roots[i] - roots[j]) >= Separation
  }

  /**
    The scan stops as soon as the count reaches |cs| - 1, and the count starts at
    zero and grows by at most one per seed: so for a polynomial of degree at least 1
    it never finds more roots than the degree.
  */
  lemma NumericalRootsBound(cs: seq<real>)
    requires |cs| >= 2
    ensures |NumericalRoots(cs)| <= |cs| - 1
  {
    ScanBound(cs, Seeds, []);
  }

  lemma {:induction false} ScanBound(cs: seq<real>, seeds: seq<real>, roots: seq<real>)
    requires |roots| < |cs| - 1
    ensures |Scan(cs, seeds, roots)| <= |cs| - 1
    decreases |seeds|
  {
    if seeds != [] {
      var next := Consider(cs, seeds[0], roots);
      assert |next| <= |roots| + 1;
      if |next| < |cs| - 1 {
        ScanBound(cs, seeds[1..], next);
      }
    }
  }

  /** A candidate at least 0.01 from a stored root stays at least 0.01 from it once rounded to 5 decimals. */
  lemma FarAfterRounding(r: real, x: real)
    requires OnGrid(r, StoredDecimals) && Abs(r - x) >= Separation
    ensures Abs(r - FixedValue(x, StoredDecimals)) >= Separation
  {
    GridShift(r);
    if x >= r + 0.01 {
      FixedValueMonotone(r + 0.01, x, 5);
      FixedValueOfGridPoint(r + 0.01, 5);
    } else {
      FixedValueMonotone(x, r - 0.01, 5);
      FixedValueOfGridPoint(r - 0.01, 5);
    }
  }

  /** Trying one seed keeps the stored roots on the grid and pairwise separated. */
  lemma ConsiderKeepsSeparation(cs: seq<real>, guess: real, roots: seq<real>)
    requires AllOnGrid(roots) && Separated(roots)
    ensures AllOnGrid(Consider(cs, guess, roots)) && Separated(Consider(cs, guess, roots))
  {
    var o := NewtonFrom(cs, guess, Tolerance, MaxIterations);
    if o.Some? && !NearAny(roots, o.value) && Abs(PolyValue(cs, o.value)) < ResidualBound {
      var x := o.value;
      var v := FixedValue(x, StoredDecimals);
      var next := roots + [v];
      assert Consider(cs, guess, roots) == next;
      FixedValueOnGrid(x, StoredDecimals);
      forall i | 0 <= i < |roots|
        ensures Abs(roots[i] - v) >= Separation
      {
        FarAfterRounding(roots[i], x);
      }
      forall i, j | 0 <= i < j < |next|
        ensures Abs(next[i] - next[j]) >= Separation
      {
        if j == |roots| {
          assert next[j] == v;
        }
      }
    }
  }

  lemma {:induction false} ScanKeepsSeparation(cs: seq<real>, seeds: seq<real>, roots: seq<real>)
    requires AllOnGrid(roots) && Separated(roots)
    ensures AllOnGrid(Scan(cs, seeds, roots)) && Separated(Scan(cs, seeds, roots))
    decreases |seeds|
  {
    if seeds != [] {
      ConsiderKeepsSeparation(cs, seeds[0], roots);
      var next := Consider(cs, seeds[0], roots);
      if |next| < |cs| - 1 {
        ScanKeepsSeparation(cs, seeds[1..], next);
      }
    }
  }

  /** The roots found are pairwise at least 0.01 apart, each written with at most 5 decimals. */
  lemma NumericalRootsSeparated(cs: seq<real>)
    ensures var r := NumericalRoots(cs);
            forall i, j :: 0 <= i < j < |r| ==> Abs(r[i].re - r[j].re) >= Separation
    ensures var r := NumericalRoots(cs);
            forall i :: 0 <= i < |r| ==> OnGrid(r[i].re, StoredDecimals)
  {
    ScanKeepsSeparation(cs, Seeds, []);
  }

  /**
    The seed g produced the stored value v: Newton from g answered x, the residual
    at x is below 0.001, and v is x rounded to 5 decimals.
  */
  predicate AcceptedFrom(cs: seq<real>, g: real, v: real) {
    var o := NewtonFrom(cs, g, Tolerance, MaxIterations);
    o.Some? && Abs(PolyValue(cs, o.value)) < ResidualBound && v == FixedValue(o.value, StoredDecimals)
  }

  /** idx lists, in increasing order, for each stored root the position of the seed that produced it. */
  predicate SeedOrder(cs: seq<real>, seeds: seq<real>, roots: seq<real>, idx: seq<nat>) {
    && |idx| == |roots|
    && (forall k :: 0 <= k < |idx| ==> idx[k] < |seeds| && AcceptedFrom(cs, seeds[idx[k]], roots[k]))
    && (forall k, l :: 0 <= k < l < |idx| ==> idx[k] < idx[l])
  }

  /**
    Every root found was produced by a seed, and the roots appear in the order of
    their seeds, each seed giving at most one root.
  */
  lemma NumericalRootsFromSeeds(cs: seq<real>) returns (idx: seq<nat>)
    ensures SeedOrder(cs, Seeds, Scan(cs, Seeds, []), idx)
  {
    idx := ScanFromSeeds(cs, Seeds, []);
  }

  lemma {:induction false} ScanFromSeeds(cs: seq<real>, seeds: seq<real>, roots: seq<real>)
    returns (idx: seq<nat>)
    ensures var r := Scan(cs, seeds, roots);
            && |r| == |roots| + |idx| && r[..|roots|] == roots
            && (forall k :: 0 <= k < |idx| ==> idx[k] < |seeds| && AcceptedFrom(cs, seeds[idx[k]], r[|roots| + k]))
            && (forall k, l :: 0 <= k < l < |idx| ==> idx[k] < idx[l])
    decreases |seeds|
  {
    if seeds == [] {
      idx := [];
    } else {
      var next := Consider(cs, seeds[0], roots);
      ConsiderProvenance(cs, seeds[0], roots);
      var head: seq<nat> := if |next| == |roots| then [] else [0];
      if |next| >= |cs| - 1 {
        idx := head;
      } else {
        var rest := ScanFromSeeds(cs, seeds[1..], next);
        idx := head + Shifted(rest);
        var r := Scan(cs, seeds[1..], next);
        assert Scan(cs, seeds, roots) == r;
        var accepted := (g, v) => AcceptedFrom(cs, g, v);
        forall k | 0 <= k < |rest|
          ensures rest[k] < |seeds| - 1 && accepted(seeds[rest[k] + 1], r[|next| + k])
        {
          assert seeds[1..][rest[k]] == seeds[rest[k] + 1];
        }
        ShiftedProvenance(seeds, roots, next, r, head, rest, accepted);
      }
    }
  }

  /** Each index one higher: positions in seeds[1..] as positions in seeds. */
  function Shifted(idx: seq<nat>): (r: seq<nat>)
    ensures |r| == |idx| && forall k :: 0 <= k < |idx| ==> r[k] == idx[k] + 1
  {
    seq(|idx|, k requires 0 <= k < |idx| => idx[k] + 1)
  }

  /** Trying one seed keeps the roots already stored and adds at most one, produced by that seed. */
  lemma ConsiderProvenance(cs: seq<real>, g: real, roots: seq<real>)
    ensures var next := Consider(cs, g, roots);
            && (|next| == |roots| || |next| == |roots| + 1) && next[..|roots|] == roots
            && (|next| == |roots| + 1 ==> AcceptedFrom(cs, g, next[|roots|]))
  {
  }

  /**
    Putting the index of the first seed (when it added a root) in front of the
    indices found for the remaining seeds, shifted by one, keeps every root tied
    to its seed and the indices increasing.
  */
  lemma ShiftedProvenance(seeds: seq<real>, roots: seq<real>, next: seq<real>, r: seq<real>,
                          head: seq<nat>, rest: seq<nat>, accepted: (real, real) -> bool)
    requires seeds != []
    requires |next| == |roots| + |head| && next[..|roots|] == roots
    requires head == [] || (head == [0] && accepted(seeds[0], next[|roots|]))
    requires |r| == |next| + |rest| && r[..|next|] == next
    requires forall k :: 0 <= k < |rest| ==> rest[k] < |seeds| - 1 && accepted(seeds[rest[k] + 1], r[|next| + k])
    requires forall k, l :: 0 <= k < l < |rest| ==> rest[k] < rest[l]
    ensures var idx := head + Shifted(rest);
            && |r| == |roots| + |idx| && r[..|roots|] == roots
            && (forall k :: 0 <= k < |idx| ==> idx[k] < |seeds| && accepted(seeds[idx[k]], r[|roots| + k]))
            && (forall k, l :: 0 <= k < l < |idx| ==> idx[k] < idx[l])
  {
    var idx := head + Shifted(rest);
    assert r[..|roots|] == roots by {
      assert r[..|roots|] == r[..|next|][..|roots|];
    }
    ShiftedIncreasing(head, rest);
    ShiftedAccepted(seeds, roots, next, r, head, rest, accepted);
  }

  /** The indices of ShiftedProvenance increase. */
  lemma ShiftedIncreasing(head: seq<nat>, rest: seq<nat>)
    requires head == [] || head == [0]
    requires forall k, l :: 0 <= k < l < |rest| ==> rest[k] < rest[l]
    ensures var idx := head + Shifted(rest);
            forall k, l :: 0 <= k < l < |idx| ==> idx[k] < idx[l]
  {
    var idx := head + Shifted(rest);
    forall k, l | 0 <= k < l < |idx|
      ensures idx[k] < idx[l]
    {
      if k >= |head| {
        assert rest[k - |head|] < rest[l - |head|];
      }
    }
  }

  /** Each index of ShiftedProvenance points at the seed that produced its root. */
  lemma ShiftedAccepted(seeds: seq<real>, roots: seq<real>, next: seq<real>, r: seq<real>,
                        head: seq<nat>, rest: seq<nat>, accepted: (real, real) -> bool)
    requires seeds != []
    requires |next| == |roots| + |head| && next[..|roots|] == roots
    requires head == [] || (head == [0] && accepted(seeds[0], next[|roots|]))
    requires |r| == |next| + |rest| && r[..|next|] == next
    requires forall k :: 0 <= k < |rest| ==> rest[k] < |seeds| - 1 && accepted(seeds[rest[k] + 1], r[|next| + k])
    ensures var idx := head + Shifted(rest);
            forall k :: 0 <= k < |idx| ==> idx[k] < |seeds| && accepted(seeds[idx[k]], r[|roots| + k])
  {
    var idx := head + Shifted(rest);
    forall k | 0 <= k < |idx|
      ensures idx[k] < |seeds| && accepted(seeds[idx[k]], r[|roots| + k])
    {
      if k < |head| {
        assert r[|roots|] == next[|roots|];
      } else {
        var m := k - |head|;
        assert r[|roots| + k] == r[|next| + m];
      }
    }
  }

  /** Once a prefix of the seeds has brought the count to |cs| - 1, the seeds after it are never tried. */
  lemma {:induction false} ScanStopsAtCap(cs: seq<real>, s1: seq<real>, s2: seq<real>, roots: seq<real>)
    requires |s1| > 0 && |Scan(cs, s1, roots)| >= |cs| - 1
    ensures Scan(cs, s1 + s2, roots) == Scan(cs, s1, roots)
    decreases |s1|
  {
    var next := Consider(cs, s1[0], roots);
    assert (s1 + s2)[0] == s1[0];
    if |next| < |cs| - 1 {
      assert (s1 + s2)[1..] == s1[1..] + s2;
      ScanStopsAtCap(cs, s1[1..], s2, next);
    }
  }

  /**
    The residual test of the scan never rejects a candidate: Newton only answers
    points whose residual is below 1e-10, far below 0.001.
  */
  lemma ResidualTestPasses(cs: seq<real>, guess: real)
    requires NewtonFrom(cs, guess, Tolerance, MaxIterations).Some?
    ensures Abs(PolyValue(cs, NewtonFrom(cs, guess, Tolerance, MaxIterations).value)) < ResidualBound
  {
    var k := NewtonFromConverged(cs, guess, Tolerance, MaxIterations);
  }

  /** A candidate that Newton answers and that is not near a stored root is stored, rounded to five decimals. */
  lemma ConsiderStoresPassing(cs: seq<real>, g: real, roots: seq<real>)
    requires NewtonFrom(cs, g, Tolerance, MaxIterations).Some?
    requires !NearAny(roots, NewtonFrom(cs, g, Tolerance, MaxIterations).value)
    ensures Consider(cs, g, roots) == roots + [FixedValue(NewtonFrom(cs, g, Tolerance, MaxIterations).value, StoredDecimals)]
  {
    ResidualTestPasses(cs, g);
  }

  /** While a prefix of the seeds leaves the count below |cs| - 1, the scan goes on with the seeds after it. */
  lemma {:induction false} ScanContinues(cs: seq<real>, s1: seq<real>, s2: seq<real>, roots: seq<real>)
    requires |Scan(cs, s1, roots)| < |cs| - 1
    ensures Scan(cs, s1 + s2, roots) == Scan(cs, s2, Scan(cs, s1, roots))
    decreases |s1|
  {
    if s1 == [] {
      assert s1 + s2 == s2;
    } else {
      var next := Consider(cs, s1[0], roots);
      assert (s1 + s2)[0] == s1[0];
      assert (s1 + s2)[1..] == s1[1..] + s2;
      ScanContinues(cs, s1[1..], s2, next);
    }
  }

  /**
    Completeness of the scan: when the seeds before Seeds[i] leave room for
    another root and Newton from Seeds[i] answers a point not near any of
    the roots found so far, that point, rounded, is the next root reported.
  */
  lemma ScanStoresPassing(cs: seq<real>, i: nat)
    requires i < |Seeds|
    requires |Scan(cs, Seeds[..i], [])| < |cs| - 1
    requires NewtonFrom(cs, Seeds[i], Tolerance, MaxIterations).Some?
    requires !NearAny(Scan(cs, Seeds[..i], []), NewtonFrom(cs, Seeds[i], Tolerance, MaxIterations).value)
    ensures |Scan(cs, Seeds[..i], [])| < |NumericalRoots(cs)|
    ensures NumericalRoots(cs)[|Scan(cs, Seeds[..i], [])|].re
            == FixedValue(NewtonFrom(cs, Seeds[i], Tolerance, MaxIterations).value, StoredDecimals)
  {
    var pre := Scan(cs, Seeds[..i], []);
    var v := FixedValue(NewtonFrom(cs, Seeds[i], Tolerance, MaxIterations).value, StoredDecimals);
    assert Seeds == Seeds[..i] + Seeds[i..];
    ScanContinues(cs, Seeds[..i], Seeds[i..], []);
    var rest := Seeds[i..];
    assert rest[0] == Seeds[i];
    var next := Consider(cs, rest[0], pre);
    ConsiderStoresPassing(cs, Seeds[i], pre);
    assert next[|pre|] == v;
    var r := Scan(cs, Seeds, []);
    if |next| < |cs| - 1 {
      var _ := ScanFromSeeds(cs, rest[1..], next);
    }
    assert r[..|next|] == next;
    assert r[|pre|] == v;
  }

  /** A candidate within 0.01 of a stored root is thrown away: the stored roots stay as they are. */
  lemma ConsiderSkipsNear(cs: seq<real>, g: real, roots: seq<real>)
    requires NewtonFrom(cs, g, Tolerance, MaxIterations).Some?
    requires NearAny(roots, NewtonFrom(cs, g, Tolerance, MaxIterations).value)
    ensures Consider(cs, g, roots) == roots
  {
  }

  /**
    When the seeds before Seeds[i] leave room for another root but Newton from
    Seeds[i] answers a point within 0.01 of one of the roots found so far,
    trying Seeds[i] adds nothing.
  */
  lemma ScanSkipsNear(cs: seq<real>, i: nat)
    requires i < |Seeds|
    requires |Scan(cs, Seeds[..i], [])| < |cs| - 1
    requires NewtonFrom(cs, Seeds[i], Tolerance, MaxIterations).Some?
    requires NearAny(Scan(cs, Seeds[..i], []), NewtonFrom(cs, Seeds[i], Tolerance, MaxIterations).value)
    ensures Scan(cs, Seeds[..i + 1], []) == Scan(cs, Seeds[..i], [])
  {
    var pre := Scan(cs, Seeds[..i], []);
    assert Seeds[..i + 1] == Seeds[..i] + [Seeds[i]];
    ScanContinues(cs, Seeds[..i], [Seeds[i]], []);
    ConsiderSkipsNear(cs, Seeds[i], pre);
  }
}

=== FILE: polynomial.dfy ===
/**
  The polynomial a coefficient list stands for, leading coefficient first:
  [c0, c1, ..., cn] is c0·x^n + c1·x^(n-1) + ... + cn. The solver hook evaluates it
  and its derivative with two accumulator loops; `Math.pow` is exact
  multiplication here.
*/
module Polynomial {

  /** x to the power n (`Math.pow(x, n)` for a natural exponent). */
  function Pow(x: real, n: nat): real {
    if n == 0 then 1.0 else x * Pow(x, n - 1)
  }

  /** The first k terms of the evaluation loop: the sum of cs[i]·x^(|cs|-1-i) for i < k. */
  function TermSum(cs: seq<real>, k: nat, x: real): real
    requires k <= |cs|
  {
    if k == 0 then 0.0 else TermSum(cs, k - 1, x) + cs[k - 1] * Pow(x, |cs| - k)
  }

  /** The value of the polynomial cs at x. */
  function PolyValue(cs: seq<real>, x: real): real {
    TermSum(cs, |cs|, x)
  }

  /** The first k terms of the derivative loop: the sum of (|cs|-1-i)·cs[i]·x^(|cs|-2-i) for i < k. */
  function DerivSum(cs: seq<real>, k: nat, x: real): real
    requires k < |cs|
  {
    if k == 0 then 0.0
    else DerivSum(cs, k - 1, x) + (|cs| - k) as real * cs[k - 1] * Pow(x, |cs| - 1 - k)
  }

  /** The value at x of the derivative of the polynomial cs (0 for the empty list). */
  function DerivValue(cs: seq<real>, x: real): real {
    if |cs| == 0 then 0.0 else DerivSum(cs, |cs| - 1, x)
  }

  /** Horner's scheme: an independent definition of the value of cs at x. */
  function Horner(cs: seq<real>, x: real): real {
    if cs == [] then 0.0 else Horner(cs[..|cs| - 1], x) * x + cs[|cs| - 1]
  }

  /** The coefficients of the derivative by the power rule: (n-i)·c_i for each non-constant term. */
  function PowerRule(cs: seq<real>): (ds: seq<real>)
    requires |cs| > 0
    ensures |ds| == |cs| - 1
    ensures forall i :: 0 <= i < |ds| ==> ds[i] == (|cs| - 1 - i) as real * cs[i]
  {
    seq(|cs| - 1, i requires 0 <= i < |cs| - 1 => (|cs| - 1 - i) as real * cs[i])
  }

  // ---------------------------------------------------------------------------
  // The two accumulator loops

  /** `polynomialFunction(coeffs)(x)`. */
  method PolynomialFunction(cs: seq<real>, x: real) returns (result: real)
    ensures result == PolyValue(cs, x)
  {
    result := 0.0;
    var i := 0;
    while i < |cs|
      invariant 0 <= i <= |cs|
      invariant result == TermSum(cs, i, x)
    {
      result := result + cs[i] * Pow(x, |cs| - 1 - i);
      i := i + 1;
    }
  }

  /** `polynomialDerivative(coeffs)(x)`. */
  method PolynomialDerivative(cs: seq<real>, x: real) returns (result: real)
    ensures result == DerivValue(cs, x)
  {
    result := 0.0;
    if |cs| == 0 {
      return;
    }
    var i := 0;
    while i < |cs| - 1
      invariant 0 <= i <= |cs| - 1
      invariant result == DerivSum(cs, i, x)
    {
      result := result + (|cs| - 1 - i) as real * cs[i] * Pow(x, |cs| - 2 - i);
      i := i + 1;
    }
  }

  // ---------------------------------------------------------------------------
  // Evaluation

  /** Appending a coefficient multiplies the old polynomial by x and adds it. */
  lemma PolyValueAppend(cs: seq<real>, c: real, x: real)
    ensures PolyValue(cs + [c], x) == x * PolyValue(cs, x) + c
  {
    TermSumShift(cs, c, |cs|, x);
    assert (cs + [c])[|cs|] == c;
  }

  lemma {:induction false} TermSumShift(cs: seq<real>, c: real, k: nat, x: real)
    requires k <= |cs|
    ensures TermSum(cs + [c], k, x) == x * TermSum(cs, k, x)
  {
    if k > 0 {
      TermSumShift(cs, c, k - 1, x);
      TermShiftFacts(cs, c, k, x);
      ShiftTerm(TermSum(cs, k - 1, x), cs[k - 1], Pow(x, |cs| - k), x);
    }
  }

  /** One step of the sum for cs + [c] and for cs, with the power of x shared. */
  lemma TermShiftFacts(cs: seq<real>, c: real, k: nat, x: real)
    ensures 0 < k <= |cs| ==>
      && TermSum(cs + [c], k, x) == TermSum(cs + [c], k - 1, x) + cs[k - 1] * (x * Pow(x, |cs| - k))
      && TermSum(cs, k, x) == TermSum(cs, k - 1, x) + cs[k - 1] * Pow(x, |cs| - k)
  {
    if 0 < k <= |cs| {
      TermSumUnfold(cs + [c], k, x, cs[k - 1], x * Pow(x, |cs| - k));
    }
  }

  lemma ShiftTerm(s: real, c: real, p: real, x: real)
    ensures x * s + c * (x * p) == x * (s + c * p)
  {
  }

  /** The evaluation loop computes what Horner's scheme computes. */
  lemma {:induction false} PolyValueIsHorner(cs: seq<real>, x: real)
    ensures PolyValue(cs, x) == Horner(cs, x)
    decreases |cs|
  {
    if cs != [] {
      var front := cs[..|cs| - 1];
      PolyValueIsHorner(front, x);
      PolyValueAppend(front, cs[|cs| - 1], x);
      assert front + [cs[|cs| - 1]] == cs;
    }
  }

  /** The evaluation loop on a linear and on a quadratic polynomial. */
  lemma LowDegreeValues(a: real, b: real, c: real, x: real)
    ensures PolyValue([a, b], x) == a * x + b
    ensures PolyValue([a, b, c], x) == a * x * x + b * x + c
  {
    PolyValueIsHorner([a, b], x);
    PolyValueIsHorner([a, b, c], x);
    assert [a, b, c][..2] == [a, b];
    assert [a, b][..1] == [a];
    assert [a][..0] == [];
    assert Horner([a], x) == a;
    assert Horner([a, b], x) == a * x + b;
    assert (a * x + b) * x + c == a * x * x + b * x + c;
  }

  // ---------------------------------------------------------------------------
  // Derivative

  /** The derivative of a constant is zero. */
  lemma DerivValueConstant(c: real, x: real)
    ensures DerivValue([c], x) == 0.0
  {
  }

  /**
    The product rule on Horner's step: the polynomial p·x + c has derivative
    p + x·p'. With DerivValueConstant this pins DerivValue down as the derivative.
  */
  lemma DerivValueAppend(cs: seq<real>, c: real, x: real)
    requires |cs| > 0
    ensures DerivValue(cs + [c], x) == PolyValue(cs, x) + x * DerivValue(cs, x)
  {
    var ds := PowerRule(cs);
    var shifted := ds + [0.0];
    PowerRuleAppend(cs, c);
    DerivValueIsPowerRule(cs + [c], x);
    DerivValueIsPowerRule(cs, x);
    PolyValueSum(shifted, cs, x);
    PolyValueAppend(ds, 0.0, x);
  }

  /** The coefficient lists u and v added position by position. */
  function Sum(u: seq<real>, v: seq<real>): (w: seq<real>)
    requires |u| == |v|
    ensures |w| == |u|
    ensures forall i :: 0 <= i < |w| ==> w[i] == u[i] + v[i]
  {
    seq(|u|, i requires 0 <= i < |u| => u[i] + v[i])
  }

  /** Each exponent of cs + [c] is one more than in cs, so its power-rule list gains one copy of cs. */
  lemma PowerRuleAppend(cs: seq<real>, c: real)
    requires |cs| > 0
    ensures PowerRule(cs + [c]) == Sum(PowerRule(cs) + [0.0], cs)
  {
    var ds, es := PowerRule(cs), PowerRule(cs + [c]);
    var w := Sum(ds + [0.0], cs);
    forall i | 0 <= i < |cs|
      ensures es[i] == w[i]
    {
      assert (cs + [c])[i] == cs[i];
      if i < |cs| - 1 {
        assert (ds + [0.0])[i] == (|cs| - 1 - i) as real * cs[i];
      } else {
        assert (ds + [0.0])[i] == 0.0;
      }
    }
  }

  /** Evaluation is additive in the coefficients. */
  lemma PolyValueSum(u: seq<real>, v: seq<real>, x: real)
    requires |u| == |v|
    ensures PolyValue(Sum(u, v), x) == PolyValue(u, x) + PolyValue(v, x)
  {
    TermSumSum(u, v, |u|, x);
  }

  lemma {:induction false} TermSumSum(u: seq<real>, v: seq<real>, k: nat, x: real)
    requires |u| == |v| && k <= |u|
    ensures TermSum(Sum(u, v), k, x) == TermSum(u, k, x) + TermSum(v, k, x)
  {
    if k > 0 {
      TermSumSum(u, v, k - 1, x);
      SumFacts(u, v, k, x);
      Distribute(TermSum(u, k - 1, x), TermSum(v, k - 1, x), u[k - 1], v[k - 1], Pow(x, |u| - k));
    }
  }

  /** One step of each of the three sums TermSumSum relates, with the power of x shared. */
  lemma SumFacts(u: seq<real>, v: seq<real>, k: nat, x: real)
    ensures 0 < k <= |u| == |v| ==>
      && TermSum(Sum(u, v), k, x) == TermSum(Sum(u, v), k - 1, x) + (u[k - 1] + v[k - 1]) * Pow(x, |u| - k)
      && TermSum(u, k, x) == TermSum(u, k - 1, x) + u[k - 1] * Pow(x, |u| - k)
      && TermSum(v, k, x) == TermSum(v, k - 1, x) + v[k - 1] * Pow(x, |u| - k)
  {
    if 0 < k <= |u| == |v| {
      var w := Sum(u, v);
      TermSumUnfold(w, k, x, u[k - 1] + v[k - 1], Pow(x, |u| - k));
    }
  }

  lemma Distribute(s: real, t: real, a: real, b: real, p: real)
    ensures (s + t) + (a + b) * p == (s + a * p) + (t + b * p)
  {
  }

  lemma TermSumUnfold(cs: seq<real>, k: nat, x: real, c: real, q: real)
    requires 0 < k <= |cs| && c == cs[k - 1] && q == Pow(x, |cs| - k)
    ensures TermSum(cs, k, x) == TermSum(cs, k - 1, x) + c * q
  {
  }

  /** The derivative loop evaluates the power-rule coefficients. */
  lemma DerivValueIsPowerRule(cs: seq<real>, x: real)
    requires |cs| > 0
    ensures DerivValue(cs, x) == PolyValue(PowerRule(cs), x)
  {
    DerivSumIsTermSum(cs, |cs| - 1, x);
  }

  lemma {:induction false} DerivSumIsTermSum(cs: seq<real>, k: nat, x: real)
    requires k < |cs|
    ensures DerivSum(cs, k, x) == TermSum(PowerRule(cs), k, x)
  {
    if k > 0 {
      DerivSumIsTermSum(cs, k - 1, x);
    }
  }
}

=== FILE: results.dfy ===
/**
  The text the hook offers for copying the results: a header line and one line
  per solution, "xN = value" for a real root with 5 decimals and
  "xN = re ± im i" for a complex one with 3 decimals; with no solutions, the
  current error message or a notice that nothing has been solved yet.
*/
module Results {
  import opened Text
  import opened Decimal
  import opened Solvers

  const Header: string := "Soluciones encontradas:"
  const NothingSolved: string := "No se han calculado soluciones."

  /** The line for the solution s at position i of the list (numbered from 1). */
  function SolutionLine(i: nat, s: Solution): string {
    var name := "x" + NatText(i + 1) + " = ";
    if s.isComplex then
      var sign := if s.im >= 0.0 then "+" else "-";
      name + FixedText(s.re, 3) + " " + sign + " " + FixedText(Abs(s.im), 3) + "i"
    else
      name + FixedText(s.re, 5)
  }

  function SolutionLines(solutions: seq<Solution>): (lines: seq<string>)
    ensures |lines| == |solutions|
  {
    seq(|solutions|, i requires 0 <= i < |solutions| => SolutionLine(i, solutions[i]))
  }

  /** `formatSolutions()` on the current solutions and error message. */
  function FormatSolutions(solutions: seq<Solution>, error: string): string {
    if |solutions| == 0 then
      if error != "" then error else NothingSolved
    else
      Header + "\n" + Join(SolutionLines(solutions), "\n")
  }

  // ---------------------------------------------------------------------------
  // Lemmas

  /**
    With solutions, the text splits at its line breaks into the header and one
    line per solution, in order; without, it is the error message when there is
    one and the notice otherwise.
  */
  lemma FormatSolutionsLines(solutions: seq<Solution>, error: string)
    ensures |solutions| > 0 ==>
              Split(FormatSolutions(solutions, error), '\n') == [Header] + SolutionLines(solutions)
    ensures |solutions| == 0 && error != "" ==> FormatSolutions(solutions, error) == error
    ensures |solutions| == 0 && error == "" ==> FormatSolutions(solutions, error) == NothingSolved
  {
    if |solutions| > 0 {
      var lines := SolutionLines(solutions);
      LinesHaveNoBreak(solutions);
      JoinAfterHeader(lines);
      SplitJoin([Header] + lines, '\n');
    }
  }

  lemma LinesHaveNoBreak(solutions: seq<Solution>)
    ensures forall k :: 0 <= k < |solutions| ==> NoChar(SolutionLines(solutions)[k], '\n')
  {
    forall k | 0 <= k < |solutions|
      ensures NoChar(SolutionLines(solutions)[k], '\n')
    {
      LineHasNoBreak(k, solutions[k]);
    }
  }

  lemma JoinAfterHeader(lines: seq<string>)
    requires |lines| > 0
    ensures Join([Header] + lines, "\n") == Header + "\n" + Join(lines, "\n")
  {
    assert ([Header] + lines)[1..] == lines;
  }

  lemma LineHasNoBreak(i: nat, s: Solution)
    ensures NoChar(SolutionLine(i, s), '\n')
  {
    NatTextNoChar(i + 1, '\n');
    FixedTextNoChar(s.re, 3, '\n');
    FixedTextNoChar(s.re, 5, '\n');
    FixedTextNoChar(Abs(s.im), 3, '\n');
  }

  /**
    A real solution's line names it by its position and reads back as the root
    rounded to 5 decimals, within 0.000005 of the root.
  */
  lemma RealLine(i: nat, x: real) returns (t: string)
    ensures SolutionLine(i, RealSolution(x)) == "x" + NatText(i + 1) + " = " + t
    ensures DigitsValue(NatText(i + 1)) == i + 1
    ensures IsCoefficientText(t) && CoefficientValue(t) == FixedValue(x, 5)
    ensures Abs(CoefficientValue(t) - x) <= 0.000005
  {
    t := FixedText(x, 5);
    NatTextValue(i + 1);
    FixedTextValue(x, 5);
    FixedValueError(x, 5);
    FiveDecimals();
  }

  /**
    A complex solution's line shows the real part to 3 decimals, then the sign of
    the imaginary part and its magnitude to 3 decimals; read back with that sign,
    each part is within 0.0005 of the exact one.
  */
  lemma ComplexLine(i: nat, re: real, im: real) returns (tr: string, sign: string, ti: string)
    ensures SolutionLine(i, Solution(re, im, true)) == "x" + NatText(i + 1) + " = " + tr + " " + sign + " " + ti + "i"
    ensures sign == (if im >= 0.0 then "+" else "-")
    ensures IsCoefficientText(tr) && Abs(CoefficientValue(tr) - re) <= 0.0005
    ensures IsCoefficientText(ti) && CoefficientValue(ti) >= 0.0
    ensures var v := CoefficientValue(ti); Abs((if sign == "+" then v else -v) - im) <= 0.0005
  {
    tr, ti := FixedText(re, 3), FixedText(Abs(im), 3);
    sign := if im >= 0.0 then "+" else "-";
    ReadsBackToThree(re);
    ReadsBackToThree(Abs(im));
    var v := CoefficientValue(ti);
    assert v >= 0.0 by {
      FixedValueMonotone(0.0, Abs(im), 3);
      ZeroStaysZero();
    }
  }

  /** `x.toFixed(3)` reads back within 0.0005 of x. */
  lemma ReadsBackToThree(x: real)
    ensures IsCoefficientText(FixedText(x, 3))
    ensures CoefficientValue(FixedText(x, 3)) == FixedValue(x, 3)
    ensures Abs(FixedValue(x, 3) - x) <= 0.0005
  {
    FixedTextValue(x, 3);
    FixedValueError(x, 3);
    ThreeDecimals();
  }

  lemma ZeroStaysZero()
    ensures FixedValue(0.0, 3) == 0.0
  {
    assert OnGrid(0.0, 3) by {
      assert (0.0 * Pow10(3) as real).Floor == 0;
    }
    FixedValueOfGridPoint(0.0, 3);
  }

  lemma FiveDecimals()
    ensures 0.5 / Pow10(5) as real == 0.000005
  {
    assert Pow10(5) == 100000 by {
      assert Pow10(2) == 100;
    }
  }

  lemma ThreeDecimals()
    ensures 0.5 / Pow10(3) as real == 0.0005
  {
    assert Pow10(3) == 1000 by {
      assert Pow10(2) == 100;
    }
  }
}

=== FILE: solvers.dfy ===
/**
  The closed-form solvers of the hook: the linear equation a·x + b = 0 and the
  quadratic a·x² + b·x + c = 0, split on the sign of the discriminant. A solution
  is a complex number re + im·i with a flag telling whether it is complex.
*/
module Solvers {
  import opened Polynomial

  /** One entry of the solution list: `{ real, imag, isComplex }`. */
  datatype Solution = Solution(re: real, im: real, isComplex: bool)

  /** A real root as the solvers report it. */
  function RealSolution(x: real): Solution {
    Solution(x, 0.0, false)
  }

  /** `Math.sqrt` on the non-negative reals: a non-negative number whose square is the argument. */
  ghost predicate IsSquareRoot(sqrt: real -> real) {
    forall d: real :: d >= 0.0 ==> sqrt(d) >= 0.0 && sqrt(d) * sqrt(d) == d
  }

  function Discriminant(a: real, b: real, c: real): real {
    b * b - 4.0 * a * c
  }

  /** re + im·i solves a·z² + b·z + c = 0: its real and its imaginary part both vanish. */
  predicate IsComplexRoot(a: real, b: real, c: real, re: real, im: real) {
    a * (re * re - im * im) + b * re + c == 0.0 && (2.0 * a * re + b) * im == 0.0
  }

  /** `solveLinear(a, b)`: the one real solution of a·x + b = 0. */
  function SolveLinear(a: real, b: real): (r: seq<Solution>)
    requires a != 0.0
    ensures |r| == 1 && r[0] == RealSolution(r[0].re)
  {
    [RealSolution(-b / a)]
  }

  /**
    `solveQuadratic(a, b, c)`: two real solutions, the one with +√D first, when the
    discriminant D is positive; the double root when it is zero; a pair of complex
    conjugates, positive imaginary coefficient of √(-D)/(2a) first, when it is negative.
  */
  function SolveQuadratic(a: real, b: real, c: real, sqrt: real -> real): (r: seq<Solution>)
    requires a != 0.0 && IsSquareRoot(sqrt)
    ensures Discriminant(a, b, c) > 0.0 ==>
              |r| == 2 && r[0] == RealSolution(r[0].re) && r[1] == RealSolution(r[1].re)
    ensures Discriminant(a, b, c) == 0.0 ==> |r| == 1 && r[0] == RealSolution(r[0].re)
    ensures Discriminant(a, b, c) < 0.0 ==>
              && |r| == 2 && r[0].isComplex && r[1].isComplex
              && r[0].re == r[1].re && r[1].im == -r[0].im && r[0].im != 0.0
    ensures Discriminant(a, b, c) < 0.0 ==>
              r[0].re == -b / (2.0 * a) && r[0].im == sqrt(-Discriminant(a, b, c)) / (2.0 * a)
  {
    var discriminant := Discriminant(a, b, c);
    if discriminant > 0.0 then
      var sqrtDisc := sqrt(discriminant);
      [RealSolution((-b + sqrtDisc) / (2.0 * a)), RealSolution((-b - sqrtDisc) / (2.0 * a))]
    else if discriminant == 0.0 then
      [RealSolution(-b / (2.0 * a))]
    else
      var re := -b / (2.0 * a);
      var s := sqrt(-discriminant);
      assert s != 0.0;
      var im := s / (2.0 * a);
      [Solution(re, im, true), Solution(re, -im, true)]
  }

  // ---------------------------------------------------------------------------
  // Linear

  /** The linear solver returns the root of a·x + b, and it is the only one. */
  lemma SolveLinearRoot(a: real, b: real)
    requires a != 0.0
    ensures forall x :: PolyValue([a, b], x) == 0.0 <==> x == SolveLinear(a, b)[0].re
  {
    forall x
      ensures PolyValue([a, b], x) == 0.0 <==> x == SolveLinear(a, b)[0].re
    {
      LowDegreeValues(a, b, 0.0, x);
      LinearRoot(a, b, x);
    }
  }

  lemma LinearRoot(a: real, b: real, x: real)
    requires a != 0.0
    ensures a * x + b == 0.0 <==> x == -b / a
  {
    if x == -b / a {
      assert a * x == -b;
    }
  }

  // ---------------------------------------------------------------------------
  // Quadratic

  /**
    With a non-negative discriminant, the quadratic solver lists exactly the real
    roots of a·x² + b·x + c: each entry is a root and each root is an entry. Two
    entries are distinct, the +√D one first, and their difference is √D / a.
  */
  lemma SolveQuadraticRealRoots(a: real, b: real, c: real, sqrt: real -> real)
    requires a != 0.0 && IsSquareRoot(sqrt) && Discriminant(a, b, c) >= 0.0
    ensures var r := SolveQuadratic(a, b, c, sqrt);
            forall x :: PolyValue([a, b, c], x) == 0.0 <==> exists k :: 0 <= k < |r| && r[k].re == x
    ensures var r := SolveQuadratic(a, b, c, sqrt);
            |r| == 2 ==> r[0].re != r[1].re && r[0].re - r[1].re == sqrt(Discriminant(a, b, c)) / a
  {
    var r := SolveQuadratic(a, b, c, sqrt);
    var d := Discriminant(a, b, c);
    var s := sqrt(d);
    assert s >= 0.0 && s * s == d;
    forall x
      ensures PolyValue([a, b, c], x) == 0.0 <==> exists k :: 0 <= k < |r| && r[k].re == x
    {
      LowDegreeValues(a, b, c, x);
      QuadraticRoot(a, b, c, s, x);
      if d == 0.0 {
        ZeroProduct2(s, s);
        assert r[0].re == (-b + s) / (2.0 * a);
      } else {
        assert r[0].re == (-b + s) / (2.0 * a) && r[1].re == (-b - s) / (2.0 * a);
      }
    }
    if |r| == 2 {
      RootGap(a, b, s);
    }
  }

  /** With s = √D, x solves the quadratic exactly when x = (-b ± s)/(2a). */
  lemma QuadraticRoot(a: real, b: real, c: real, s: real, x: real)
    requires a != 0.0 && s >= 0.0 && s * s == Discriminant(a, b, c)
    ensures a * x * x + b * x + c == 0.0 <==> x == (-b + s) / (2.0 * a) || x == (-b - s) / (2.0 * a)
  {
    var u := 2.0 * a * x + b;
    CompleteSquare(a, b, c, x);
    assert a * x * x + b * x + c == 0.0 <==> u * u == s * s by {
      ZeroProduct(4.0 * a, a * x * x + b * x + c);
    }
    SquareRoots(u, s);
    SolveForX(a, b, x, s);
    SolveForX(a, b, x, -s);
  }

  /** 4a·(a·x² + b·x + c) = (2a·x + b)² - D. */
  lemma CompleteSquare(a: real, b: real, c: real, x: real)
    ensures 4.0 * a * (a * x * x + b * x + c) == (2.0 * a * x + b) * (2.0 * a * x + b) - Discriminant(a, b, c)
  {
  }

  lemma ZeroProduct(p: real, q: real)
    requires p != 0.0
    ensures p * q == 0.0 <==> q == 0.0
  {
  }

  /** The two square roots of s² are s and -s. */
  lemma SquareRoots(u: real, s: real)
    ensures u * u == s * s <==> u == s || u == -s
  {
    assert u * u - s * s == (u - s) * (u + s);
    if u * u == s * s {
      ZeroProduct2(u - s, u + s);
    }
  }

  lemma ZeroProduct2(p: real, q: real)
    requires p * q == 0.0
    ensures p == 0.0 || q == 0.0
  {
  }

  lemma SolveForX(a: real, b: real, x: real, t: real)
    requires a != 0.0
    ensures 2.0 * a * x + b == t <==> x == (-b + t) / (2.0 * a)
  {
    if x == (-b + t) / (2.0 * a) {
      assert 2.0 * a * x == -b + t;
    }
  }

  lemma RootGap(a: real, b: real, s: real)
    requires a != 0.0 && s > 0.0
    ensures (-b + s) / (2.0 * a) - (-b - s) / (2.0 * a) == s / a
    ensures (-b + s) / (2.0 * a) != (-b - s) / (2.0 * a)
  {
    assert (-b + s) / (2.0 * a) - (-b - s) / (2.0 * a) == (2.0 * s) / (2.0 * a);
  }

  /**
    With a negative discriminant, both entries are complex roots of the
    quadratic, and it has no real root at all.
  */
  lemma SolveQuadraticComplexRoots(a: real, b: real, c: real, sqrt: real -> real)
    requires a != 0.0 && IsSquareRoot(sqrt) && Discriminant(a, b, c) < 0.0
    ensures var r := SolveQuadratic(a, b, c, sqrt);
            forall k :: 0 <= k < |r| ==> IsComplexRoot(a, b, c, r[k].re, r[k].im)
    ensures forall x :: PolyValue([a, b, c], x) != 0.0
  {
    var r := SolveQuadratic(a, b, c, sqrt);
    var d := Discriminant(a, b, c);
    var s := sqrt(-d);
    assert s >= 0.0 && s * s == -d;
    var re := -b / (2.0 * a);
    assert 2.0 * a * re + b == 0.0;
    ConjugateRoot(a, b, c, re, s / (2.0 * a), s);
    ConjugateRoot(a, b, c, re, -(s / (2.0 * a)), s);
    forall x
      ensures PolyValue([a, b, c], x) != 0.0
    {
      LowDegreeValues(a, b, c, x);
      CompleteSquare(a, b, c, x);
      var u := 2.0 * a * x + b;
      assert u * u >= 0.0;
    }
  }

  lemma ConjugateRoot(a: real, b: real, c: real, re: real, im: real, s: real)
    requires a != 0.0 && 2.0 * a * re + b == 0.0
    requires s * s == -Discriminant(a, b, c)
    requires 2.0 * a * im == s || 2.0 * a * im == -s
    ensures IsComplexRoot(a, b, c, re, im)
  {
    CompleteSquare(a, b, c, re);
    assert 4.0 * a * (a * re * re + b * re + c) == -Discriminant(a, b, c);
    assert 4.0 * a * (a * im * im) == s * s;
    assert 4.0 * a * (a * (re * re - im * im) + b * re + c) == 0.0;
    ZeroProduct(4.0 * a, a * (re * re - im * im) + b * re + c);
  }

  // ---------------------------------------------------------------------------
  // Worked cases

  lemma SquareRootOf(sqrt: real -> real, d: real, s: real)
    requires IsSquareRoot(sqrt) && s >= 0.0 && d == s * s
    ensures sqrt(d) == s
  {
    var t := sqrt(d);
    assert t >= 0.0 && t * t == s * s;
    SquareRoots(t, s);
  }

  /** x² - 4 = 0 has the roots 2 then -2; x² - 2x + 1 = 0 the double root 1; x² + 1 = 0 the roots i then -i. */
  lemma SolveQuadraticExamples(sqrt: real -> real)
    requires IsSquareRoot(sqrt)
    ensures SolveQuadratic(1.0, 0.0, -4.0, sqrt) == [RealSolution(2.0), RealSolution(-2.0)]
    ensures SolveQuadratic(1.0, -2.0, 1.0, sqrt) == [RealSolution(1.0)]
    ensures SolveQuadratic(1.0, 0.0, 1.0, sqrt) == [Solution(0.0, 1.0, true), Solution(0.0, -1.0, true)]
  {
    SquareRootOf(sqrt, 16.0, 4.0);
    SquareRootOf(sqrt, 4.0, 2.0);
  }
}

=== FILE: text.dfy ===
/**
  Strings as the JavaScript runtime builds them: decimal digits, the rendering of
  non-negative and signed integers, `Array.prototype.join` and
  `String.prototype.replace` with a global literal pattern.
*/
module Text {

  predicate IsDigit(c: char) {
    '0' <= c <= '9'
  }

  predicate AllDigits(s: string) {
    forall i :: 0 <= i < |s| ==> IsDigit(s[i])
  }

  function DigitValue(c: char): (d: nat)
    requires IsDigit(c)
    ensures d < 10
  {
    (c as int - '0' as int) as nat
  }

  function DigitChar(d: nat): (c: char)
    requires d < 10
    ensures IsDigit(c) && DigitValue(c) == d
  {
    ('0' as int + d) as char
  }

  function Pow10(k: nat): (p: nat)
    ensures p >= 1
  {
    if k == 0 then 1 else 10 * Pow10(k - 1)
  }

  /** The value of a string of decimal digits, most significant first; "" is 0. */
  function DigitsValue(s: string): nat
    requires AllDigits(s)
  {
    if s == [] then 0 else 10 * DigitsValue(s[..|s| - 1]) + DigitValue(s[|s| - 1])
  }

  /** The decimal digits of n, without leading zeros ("0" for zero). */
  function NatText(n: nat): (s: string)
    ensures 0 < |s| && AllDigits(s)
  {
    if n < 10 then [DigitChar(n)] else NatText(n / 10) + [DigitChar(n % 10)]
  }

  /** How JavaScript renders an integer-valued number of moderate size. */
  function IntText(n: int): (s: string)
    ensures 0 < |s|
  {
    if n < 0 then "-" + NatText(-n) else NatText(n)
  }

  function Zeros(k: nat): (s: string)
    ensures |s| == k && AllDigits(s)
  {
    if k == 0 then "" else "0" + Zeros(k - 1)
  }

  /** `parts.join(sep)`. */
  function Join(parts: seq<string>, sep: string): string {
    if |parts| == 0 then ""
    else if |parts| == 1 then parts[0]
    else parts[0] + sep + Join(parts[1..], sep)
  }

  /**
    `s.replace(/pat/g, rep)` for a literal, non-empty pattern: matches are found from
    left to right, do not overlap, and the replacement is not searched again.
  */
  function ReplaceAll(s: string, pat: string, rep: string): string
    requires |pat| > 0
    decreases |s|
  {
    if |s| == 0 then ""
    else if |pat| <= |s| && s[..|pat|] == pat then rep + ReplaceAll(s[|pat|..], pat, rep)
    else [s[0]] + ReplaceAll(s[1..], pat, rep)
  }

  /** pat occurs in s at position j. */
  predicate MatchAt(s: string, j: nat, pat: string) {
    j + |pat| <= |s| && s[j..j + |pat|] == pat
  }

  predicate NoChar(s: string, c: char) {
    forall i :: 0 <= i < |s| ==> s[i] != c
  }

  /** The pieces of s between occurrences of c (one piece more than there are c's): the inverse of Join, used to state what formatSolutions prints. */
  function Split(s: string, c: char): (parts: seq<string>)
    ensures |parts| > 0
  {
    if s == [] then [""]
    else
      var rest := Split(s[1..], c);
      if s[0] == c then [""] + rest else [[s[0]] + rest[0]] + rest[1..]
  }

  // ---------------------------------------------------------------------------
  // Lemmas

  lemma {:induction false} DigitsValueAppend(a: string, b: string)
    requires AllDigits(a) && AllDigits(b)
    ensures AllDigits(a + b)
    ensures DigitsValue(a + b) == DigitsValue(a) * Pow10(|b|) + DigitsValue(b)
    decreases |b|
  {
    if b == [] {
      assert a + b == a;
    } else {
      var b' := b[..|b| - 1];
      var d := DigitValue(b[|b| - 1]);
      DigitsValueAppend(a, b');
      assert DigitsValue(a + b) == 10 * DigitsValue(a + b') + d by {
        var ab := a + b;
        assert ab[..|ab| - 1] == a + b';
        assert ab[|ab| - 1] == b[|b| - 1];
      }
      ShiftDigit(DigitsValue(a), DigitsValue(b'), Pow10(|b'|), d);
    }
  }

  lemma ShiftDigit(va: nat, vb: nat, p: nat, d: nat)
    ensures 10 * (va * p + vb) + d == va * (10 * p) + (10 * vb + d)
  {
  }

  lemma {:induction false} ZerosValue(k: nat)
    ensures DigitsValue(Zeros(k)) == 0
  {
    if k > 0 {
      ZerosValue(k - 1);
      DigitsValueAppend("0", Zeros(k - 1));
      assert "0" + Zeros(k - 1) == Zeros(k);
      assert DigitsValue("0") == 0 by {
        assert "0"[..0] == [];
      }
    }
  }

  /** Leading zeros do not change the value of a digit string. */
  lemma ZeroPaddedValue(k: nat, s: string)
    requires AllDigits(s)
    ensures AllDigits(Zeros(k) + s) && DigitsValue(Zeros(k) + s) == DigitsValue(s)
  {
    ZerosValue(k);
    DigitsValueAppend(Zeros(k), s);
  }

  /** Reading back the digits of n gives n. */
  lemma {:induction false} NatTextValue(n: nat)
    ensures DigitsValue(NatText(n)) == n
    decreases n
  {
    var s := NatText(n);
    if n < 10 {
      assert s[..0] == [];
    } else {
      NatTextValue(n / 10);
      assert s[..|s| - 1] == NatText(n / 10);
    }
  }

  lemma {:induction false} NatTextNoChar(n: nat, c: char)
    requires !IsDigit(c)
    ensures NoChar(NatText(n), c)
  {
  }

  /** A piece without the separator extends the first piece of what follows it. */
  lemma {:induction false} SplitPrefix(a: string, b: string, c: char)
    requires NoChar(a, c)
    ensures Split(a + b, c) == [a + Split(b, c)[0]] + Split(b, c)[1..]
    decreases |a|
  {
    if a != [] {
      SplitPrefix(a[1..], b, c);
      assert (a + b)[1..] == a[1..] + b;
      assert [a[0]] + (a[1..] + Split(b, c)[0]) == a + Split(b, c)[0];
    } else {
      var parts := Split(b, c);
      assert a + b == b && a + parts[0] == parts[0];
      assert [parts[0]] + parts[1..] == parts;
    }
  }

  /** Splitting parts joined with a separator they do not contain gives the parts back. */
  lemma {:induction false} SplitJoin(parts: seq<string>, c: char)
    requires |parts| > 0
    requires forall k :: 0 <= k < |parts| ==> NoChar(parts[k], c)
    ensures Split(Join(parts, [c]), c) == parts
    decreases |parts|
  {
    if |parts| == 1 {
      SplitPrefix(parts[0], "", c);
      assert parts[0] + "" == parts[0];
    } else {
      var rest := Join(parts[1..], [c]);
      SplitJoin(parts[1..], c);
      assert Split([c] + rest, c) == [""] + parts[1..];
      SplitPrefix(parts[0], [c] + rest, c);
      assert parts[0] + [c] + rest == parts[0] + ([c] + rest);
      assert parts[0] + "" == parts[0];
      assert [parts[0]] + parts[1..] == parts;
    }
  }

  /** A match at the front is replaced, and the search goes on after it. */
  lemma ReplaceAllMatch(s: string, pat: string, rep: string)
    requires |pat| > 0 && MatchAt(s, 0, pat)
    ensures ReplaceAll(s, pat, rep) == rep + ReplaceAll(s[|pat|..], pat, rep)
  {
  }

  /** Without a match at the front, the first character is kept. */
  lemma ReplaceAllNoMatch(s: string, pat: string, rep: string)
    requires |pat| > 0 && |s| > 0 && !MatchAt(s, 0, pat)
    ensures ReplaceAll(s, pat, rep) == [s[0]] + ReplaceAll(s[1..], pat, rep)
  {
  }

  /** A prefix in which no occurrence of the pattern starts passes through the replacement unchanged. */
  lemma {:induction false} ReplaceAllSkip(a: string, b: string, pat: string, rep: string)
    requires |pat| > 0
    requires forall j :: 0 <= j < |a| ==> !MatchAt(a + b, j, pat)
    ensures ReplaceAll(a + b, pat, rep) == a + ReplaceAll(b, pat, rep)
    decreases |a|
  {
    var s := a + b;
    if a == [] {
      assert s == b;
    } else {
      assert !MatchAt(s, 0, pat);
      assert s[1..] == a[1..] + b;
      forall j | 0 <= j < |a| - 1
        ensures !MatchAt(a[1..] + b, j, pat)
      {
        assert !MatchAt(s, j + 1, pat);
        if j + |pat| <= |s[1..]| {
          assert s[1..][j..j + |pat|] == s[j + 1..j + 1 + |pat|];
        }
      }
      ReplaceAllSkip(a[1..], b, pat, rep);
      assert [s[0]] + a[1..] == a;
    }
  }

  /** A position where one character differs from the pattern is not a match. */
  lemma NoMatchAt(s: string, k: nat, pat: string, i: nat)
    requires i < |pat| && (k + |pat| <= |s| ==> s[k + i] != pat[i])
    ensures !MatchAt(s, k, pat)
  {
    if k + |pat| <= |s| {
      assert s[k..k + |pat|][i] == s[k + i];
    }
  }

  lemma Associate(a: string, b: string, c: string)
    ensures a + b + c == a + (b + c)
  {
  }

  lemma PrefixStep<T>(s: seq<T>, i: nat)
    requires i < |s|
    ensures s[..i + 1] == s[..i] + [s[i]]
  {
  }
}
